=== FILE: README.md ===
# Marlin configurator core in Dafny

This project models the small pure core of the Marlin configurator, a Tk
desktop application, and proves properties of that model. The core has
three parts.

- **Version strings** (`struttura/version.py`).
  - `get_version` writes `core[-prerelease][+build]`.
  - `check_version` parses two such strings with its inner `parse_version`. It then decides whether the second one is an update over the first.
- **Translation** (`struttura/lang.py`).
  - The English and Italian string tables are reproduced verbatim.
  - The one piece of state is the current language code.
  - The model covers `set_language`, `get_language`, `get_available_languages` and `tr`.
  - `tr` looks a key up and fills `{name}` placeholders the way `str.format(**kwargs)` does.
- **Editor keys and gutter** (`GUI/code_editor.py`).
  - `on_key_press` dispatches Return to auto-indent, trigger characters to `auto_close_bracket`, and Tab to four spaces.
  - `update_line_numbers` supplies the gutter's line labels.

Modules:

- `Wrappers`: `Option` and `Result`.
- `Text`: Python's `str.isspace`, `strip`/`lstrip`/`rstrip`, `split`, `join`, `split(sep, 1)` and the substring test `a in b`.
- `Decimal`: Python's `str(n)` and `int(s)` on natural numbers.
- `Lang`: the tables, the language state, and `str.format` with `tr`.
- `Version`: `get_version`, `parse_version` and `check_version`.
- `Editor`: the text buffer, the key handler and the gutter labels.

The editor buffer is the widget's text from `1.0` to `end-1c` plus the insert cursor as a character offset. Lines are what `split("\n")` gives.

`check_version` returns the pair (update available, message). The message is modelled as the kind of message, not its translated text. Its `except` branch cannot be reached, for two reasons:

- Parsing never raises, because `parse_version` catches the `ValueError` of `int()` itself. `CheckVersion` is total and never yields the failure message.
- The calls in the `try` block succeed. `tr` on the chosen message key returns the key, and `.format(version=...)` applied to that key returns it unchanged. `CheckVersionMessagesSucceed` states both.

Three behaviours of the code are modelled as written, not as the design intends:

- **Prereleases.** With equal cores, a prerelease counts as newer than its release. This is the reverse of section 11 of Semantic Versioning 2.0.0. Two prereleases of the same core are never ordered: `1.0-alpha` and `1.0-beta` each report no update against the other (`PrereleasesNeverUpdate`).
- **Build metadata after trailing whitespace.** Build metadata is meant to play no part in the comparison, and it plays none when the version does not end in whitespace. But `1.0- ` strips to `1.0-`, which has an empty prerelease, while in `1.0- +b` the strip cannot reach the space, so the prerelease is `" "`. Against `1.0`, the first reports no update and the second reports a prerelease. `TrailingWhitespaceBuildMatters` proves this.
- **`check_version` messages.** Its four message keys (`update_available`, `prerelease_available`, `latest_version_installed`, `version_check_failed`) are in neither table. So `tr` returns the bare key in every language.

`tr('error')` without a `msg` argument fails with a missing-argument error, as `TrError` shows. Several dialogs outside this model call it that way, for example `GUI/main_window.py:138`.

## Model

| member | source | states |
|---|---|---|
| Version.GetVersion | struttura/version.py:39-44 | the base comes first; `-prerelease` follows exactly when the prerelease is non-empty; `+build` ends the string exactly when the build is non-empty; nothing else is added |
| Version.AppVersion | struttura/version.py:30-44 | with the shipped empty prerelease and build, `get_version()` is the base `__version__` with nothing appended |
| Version.AppVersionIsVersionInfo | struttura/version.py:16-17 | `get_version()` with the shipped constants is `__version_info__` written as a dotted core |
| Version.VersionInfoAgrees | struttura/version.py:16-17 | the shipped version string parses to `(1, 0, 0)` with no prerelease and no build, so `__version__` and `__version_info__` agree |
| Version.ParseFields | struttura/version.py:201 | `tuple(map(int, fields))` succeeds exactly when every field is an integer, and then holds their values in order |
| Version.ParseCore | struttura/version.py:199-203 | the dot-separated integers when every field is one, otherwise `(0, 0, 0)`; never an empty tuple |
| Version.ParseVersion | struttura/version.py:185-205 | build metadata is split off first, so the prerelease never contains `+`; the core is never empty |
| Version.ParseGetVersion | struttura/version.py:185-205 | parsing the output of `get_version` recovers the parsed base, the prerelease and the build. This holds when the base has no `-` or `+`, the prerelease has no `+`, and the written string neither starts nor ends with whitespace; whitespace inside the fields is kept |
| Version.VersionRoundTrip | struttura/version.py:185-205 | a written core with a prerelease and build parses back to the same tuple, prerelease and build, when the prerelease has no `+` and the written string does not end in whitespace; a `-` inside the build stays in the build |
| Version.CoreRoundTrip | struttura/version.py:201 | reading the dotted decimal spelling of a tuple gives the tuple back |
| Version.ParseWrittenCore | struttura/version.py:185-205 | a bare written core parses to its tuple with empty prerelease and build |
| Version.EmptyFieldIsZero | struttura/version.py:200-203 | any core whose split on `.` has an empty field becomes `(0, 0, 0)` instead of raising |
| Version.DoubleDotIsZero | struttura/version.py:199-203 | two dots in a row, as in `1..0`, give `(0, 0, 0)` |
| Version.LeadingDotIsZero | struttura/version.py:199-203 | a leading dot, as in `.1`, gives `(0, 0, 0)` |
| Version.TrailingDotIsZero | struttura/version.py:199-203 | a trailing dot, as in `1.`, gives `(0, 0, 0)` |
| Version.EmptyCoreIsZero | struttura/version.py:200-203 | an empty core becomes `(0, 0, 0)` |
| Version.StripWithBuild | struttura/version.py:187-193 | the strip touches only the front of the text before `+` and the end of the build; when that text does not end in whitespace, its front is all the strip of it alone removes |
| Version.ParseWithBuild | struttura/version.py:192-197 | appending `+build` to a version that has no `+` and does not end in whitespace changes neither its core nor its prerelease |
| Version.Compare | struttura/version.py:207-219 | the comparison never yields the failure message, and reports an update exactly when its message is not "latest version installed" |
| Version.CheckVersion | struttura/version.py:175-221 | the same on strings: parsing cannot fail, so the result is never the failure message |
| Version.CompareDecision | struttura/version.py:212-219 | against positional lexicographic order: a greater latest core reports "update available", a smaller one "latest version installed"; with equal cores an update ("prerelease available") is reported exactly when the latest has a prerelease and the current has none; every pair of cores falls in one of the three cases |
| Version.CheckVersionDecision | struttura/version.py:207-219 | the same decision rule stated on the two strings `check_version` receives, through their parses |
| Version.PrereleasesNeverUpdate | struttura/version.py:216-217 | two prereleases of the same core never report an update against each other, whichever way round |
| Version.CheckVersionMessagesSucceed | struttura/version.py:211-219 | for the message `check_version` picks, `tr(key)` returns the key in every language, and `.format(version=latest)` on it succeeds and returns it unchanged, so nothing in the `try` block raises |
| Version.TupleLess | struttura/version.py:212 | Python's tuple `<`: it never holds between equal tuples, and when the first tuple is non-empty the second is too and does not start lower |
| Version.TupleLessWitness | struttura/version.py:212 | tuple `<` holds exactly when there is a position where the tuples agree before it and the first either ends there while the second goes on or is smaller there |
| Version.TupleLessIrreflexive | struttura/version.py:212 | no tuple is less than itself |
| Version.TupleLessAsymmetric | struttura/version.py:212 | tuple `<` never holds both ways |
| Version.TupleLessTransitive | struttura/version.py:212 | tuple `<` is transitive |
| Version.TupleLessTotal | struttura/version.py:212 | of two distinct tuples one is less than the other |
| Version.TupleLessPrefix | struttura/version.py:212 | a proper prefix is less than its extension |
| Version.ShorterCoreIsOlder | struttura/version.py:212-213 | a written core extended by more fields, such as `1.0` then `1.0.0`, is an update, and not the other way |
| Version.PrereleaseAboveRelease | struttura/version.py:216-217 | for a non-empty prerelease with no `+` that does not end in whitespace: from a release to that prerelease of the same core reports "prerelease available"; from the prerelease to the release reports no update |
| Version.NoSelfUpdate | struttura/version.py:212-219 | a version compared with itself gives (false, "latest version installed") |
| Version.UpdateAsymmetric | struttura/version.py:212-219 | if `b` is an update over `a`, then `a` is not an update over `b` |
| Version.CompareTransitive | struttura/version.py:212-217 | the update relation on parsed versions is transitive |
| Version.UpdateTransitive | struttura/version.py:207-219 | an update over an update is an update |
| Version.CompareReadsCoreAndPrerelease | struttura/version.py:208-209 | the decision depends only on the cores and prereleases, since the build is discarded |
| Version.BuildIgnored | struttura/version.py:187-209 | appending `+build` to either argument of a version that has no `+` and does not end in whitespace leaves the result unchanged |
| Version.TrailingWhitespaceBuildMatters | struttura/version.py:187-197 | against a written core `v`, `v- ` reports no update but `v- +build` reports a prerelease: after trailing whitespace, build metadata changes the answer |
| Version.ParseTrailingDash | struttura/version.py:187-197 | `v- ` strips to `v-`, which parses to the core with an empty prerelease |
| Version.ParseTrailingDashBuild | struttura/version.py:187-197 | in `v- +build` the space before `+` survives the strip and becomes the prerelease `" "` |
| Version.MessagesUntranslated | struttura/version.py:213-221 | `tr` on each message key returns the key itself, in every language and with any arguments |
| Version.MessageKeyAbsent | struttura/lang.py:4-35 | no message key of `check_version` is in the English table |
| Lang.GetLanguage | struttura/lang.py:100-113 | the code `get_language` reports names the table `tr` reads when it has one; otherwise `tr` reads English |
| Lang.Initial | struttura/lang.py:75-90 | the start-up language is the configured value, unchecked, or `en` when there is none |
| Lang.SetLanguage | struttura/lang.py:92-97 | afterwards the language is `lang` when it has a table and `en` otherwise, so it always has a table |
| Lang.SetLanguageSupported | struttura/lang.py:92-101 | after `set_language`, `get_language` returns an available language whose table `tr` reads |
| Lang.SetLanguageLastWins | struttura/lang.py:92-97 | two `set_language` calls leave what the last one alone would |
| Lang.UncheckedInitialLanguage | struttura/lang.py:90-113 | an unsupported configured code is what `get_language` returns, while `tr` translates as English |
| Lang.AvailableLanguages | struttura/lang.py:103-110 | the list holds exactly the table keys, once each |
| Lang.SameKeys | struttura/lang.py:4-67 | both tables define the same keys |
| Lang.TranslatedEverywhereOrNowhere | struttura/lang.py:113 | a key has a translation in one language's table exactly when it has one in any other's |
| Lang.TrUnknownLanguage | struttura/lang.py:113 | with an unsupported current language `tr` gives what it gives for English |
| Lang.TrUntranslatedKey | struttura/lang.py:113-114 | a key missing from the tables is its own text, with no fallback to another table; without braces it comes back verbatim |
| Lang.Tr | struttura/lang.py:112-114 | a text without braces, whether a translation or a key missing from the table, comes back as is whatever the arguments |
| Lang.EntryEn | struttura/lang.py:7 | the English `error` text is `ERROR: {msg}` |
| Lang.EntryIt | struttura/lang.py:39 | the Italian `error` text is `ERRORE: {msg}` |
| Lang.ErrorTemplate | struttura/lang.py:112-113 | the text `tr` formats for `error` is the current language's prefix followed by `{msg}` |
| Lang.TrError | struttura/lang.py:112-114 | `tr('error', msg=m)` is the prefix followed by `m`; without `msg` it fails with a missing-argument error |
| Lang.TrOneField | struttura/lang.py:112-114 | a text with one `{name}` between brace-free parts is filled from the arguments, and a missing argument is an error |
| Lang.FormatOneField | struttura/lang.py:114 | `str.format` replaces one named field between brace-free text, or fails naming the missing argument |
| Lang.FormatMsgField | struttura/lang.py:114 | a brace-free prefix followed by `{msg}` formats to the prefix followed by the argument, or fails naming `msg` |
| Lang.Format | struttura/lang.py:114 | `str.format(**args)`: text without braces formats to itself whatever the arguments |
| Lang.FormatMissingArgument | struttura/lang.py:114 | a missing-argument error always names an argument that was really not passed |
| Lang.FormatFieldFirst | struttura/lang.py:114 | a text that opens with `{name}` followed by brace-free text is that argument followed by the text, or fails naming `name` |
| Lang.FormatBraceFreePrefix | struttura/lang.py:114 | a brace-free prefix is copied through ahead of the rest's result or error |
| Lang.FormatEscape | struttura/lang.py:114 | doubled braces are literal braces: formatting a text with every brace doubled gives the text back |
| Lang.FormatExtraArgs | struttura/lang.py:114 | arguments beyond those the text uses change nothing |
| Decimal.PyInt | struttura/version.py:201 | `int(s)` succeeds exactly when the stripped text is digits with single underscores between digits and no U+001C to U+001F occurs anywhere; on success `s` is leading `int()` whitespace, that body and trailing `int()` whitespace, and the value is the body's digits read without the underscores, so together with `PyIntPadded` this characterises `int()` |
| Decimal.PyIntPadded | struttura/version.py:201 | digits and underscores surrounded by the whitespace `int()` skips read as their value |
| Decimal.PyIntRejectsInfoSeparator | struttura/version.py:201 | U+001C to U+001F are `str.isspace()` whitespace, yet `int()` raises when one follows or precedes the digits |
| Decimal.PaddingAroundStrip | struttura/version.py:201 | without U+001C to U+001F, what `strip()` removes is whitespace that `int()` skips |
| Decimal.PyIntOfNatToString | struttura/version.py:201 | `int(str(n)) == n` |
| Decimal.PyIntEmpty | struttura/version.py:201 | `int("")` raises |
| Decimal.NatToString | GUI/code_editor.py:79 | `str(n)` is a non-empty run of digits without a leading zero |
| Decimal.NatToStringValue | GUI/code_editor.py:79 | the decimal value of `str(n)` is `n` |
| Decimal.NatToStringInjective | GUI/code_editor.py:79 | distinct numbers have distinct labels |
| Text.Strip | struttura/version.py:187 | `strip()` is the slice between the leading and trailing whitespace, and neither end of it is whitespace |
| Text.StripAround | struttura/version.py:187 | whitespace around a text that neither starts nor ends with whitespace is exactly what `strip()` removes |
| Text.StripSplits | struttura/version.py:187 | a string is its leading whitespace, then its strip, then its trailing whitespace |
| Text.LeadingSpaceCount | GUI/code_editor.py:202 | `len(s) - len(s.lstrip())` counts the whitespace characters that begin `s`, and the next character is not whitespace |
| Text.SplitOn | GUI/code_editor.py:67-68 | `split("\n")` yields one more piece than there are separators, none of them holding a separator |
| Text.JoinSplit | GUI/code_editor.py:67 | joining the pieces of a split restores the text |
| Text.SplitFirst | struttura/version.py:193 | `split('+', 1)` puts the text before the first separator on the left and everything after it on the right |
| Text.SplitFirstUnique | struttura/version.py:193-197 | a separator-free left part followed by the separator is split off exactly, whatever follows |
| Text.SingleCharSubstring | GUI/code_editor.py:183 | a one-character string is a substring exactly when the character occurs |
| Editor.CursorLine | GUI/code_editor.py:197 | the cursor's line number lies between 1 and the number of lines |
| Editor.AutoIndent | GUI/code_editor.py:195-205 | the text is changed only by an insertion at the cursor: a newline followed by as many spaces as the line above has leading whitespace characters; the cursor ends after them |
| Editor.AutoCloseBracket | GUI/code_editor.py:207-220 | an opener is inserted at the cursor followed by its partner, with the cursor between them; any other string leaves the buffer as it was |
| Editor.OnKeyPress | GUI/code_editor.py:176-189 | a key is consumed exactly when it is Return, its character is a substring of the trigger string, or it is Tab; every other key goes on to Tk |
| Editor.KeyPressIsInsertion | GUI/code_editor.py:176-220 | every consumed key only inserts text at the cursor: the text before it is unchanged, the text after it shifted intact, and the cursor lands within or after the inserted run |
| Editor.InsertIsInsertion | GUI/code_editor.py:188 | `insert(INSERT, s)` is such an insertion |
| Editor.TriggerIff | GUI/code_editor.py:183 | a one-character event is intercepted exactly when its character is in the trigger string |
| Editor.SwallowedKeys | GUI/code_editor.py:183-185 | `)`, `]`, `}`, the backslash and an empty character are consumed and leave the buffer as it was |
| Editor.UnpairedIsTrigger | GUI/code_editor.py:183 | the closers and the backslash are trigger characters without a partner |
| Editor.PairsKeys | GUI/code_editor.py:209-216 | the openers are `"`, `'`, backquote, `(`, `[` and `{` |
| Editor.OpenerIsTrigger | GUI/code_editor.py:183 | every opener is a trigger character |
| Editor.OpenerInsertsPair | GUI/code_editor.py:207-220 | an opener inserts itself and its partner, and the cursor ends between them |
| Editor.LinesAboveCursor | GUI/code_editor.py:198-201 | the lines above the cursor's line are whole lines of the buffer, so the line read for the indent is read in full |
| Editor.ReturnIndents | GUI/code_editor.py:195-205 | Return inserts a newline and one space per leading whitespace character of the line above; the cursor moves to the new line at that column, the buffer gains one line, and so do the labels `update_line_numbers` computes from it |
| Editor.ReturnInsertsIndent | GUI/code_editor.py:195-205 | Return always inserts a newline followed by one space per leading whitespace character of the text read as the line above; the cursor moves to the next line at that column |
| Editor.ReturnOnFirstLine | GUI/code_editor.py:197-205 | on line 1 the line-above range is empty, so Return inserts a bare newline and the cursor goes to column 0 of line 2 |
| Editor.TabInsertsSpaces | GUI/code_editor.py:187-189 | Tab inserts four spaces; the cursor stays on its line, four columns further on |
| Editor.TabCharacterPassesTriggers | GUI/code_editor.py:183-187 | the tab character is not a trigger, so Tab reaches its own branch |
| Editor.LineLabels | GUI/code_editor.py:67-79 | there is one label more than there are newlines, and label `i` is `str(i + 1)` |
| Editor.LabelsNumberLines | GUI/code_editor.py:75-79 | there is one label per line, and the labels read `1` to `N` in order |
| Editor.EmptyBufferLabel | GUI/code_editor.py:67-79 | an empty buffer shows the single label `1` |

## Left out

- Syntax highlighting, the context menu, key-release handling, and all widget geometry are left out. This includes fonts, `measure`, the gutter's width and positions, and the canvas drawing. They depend on Tk and pygments, not on the text.
- The language configuration file is left out. Reading and writing `config.json` is I/O, so the model's state starts from the configured value given as a parameter (`Lang.Initial`), and `set_language` does not save.
- `get_version_info` and `show_version` are left out. They read the clock and the interpreter version and open a dialog.
- Main window, menus, dialogs, logging, `setup.py` and `marlin.py` are left out. They build widgets or do I/O.
- `check_version`'s message is its kind and the key it passes to `tr`, not the text. Its `version=` and `error=` arguments are never used, because the keys have no placeholders.
- Python's `int()` also accepts non-ASCII decimal digits. `Decimal.PyInt` accepts ASCII digits only. A sign cannot occur, because the core text has had everything from the first `+` and the first `-` removed.
- `str.format` features are grouped under one error kind. A field with a conversion (`!r`), a format spec (`:>4`), an attribute or an index gives `UnsupportedField`. The tables never use these.
- `strip()` removes the characters for which `str.isspace()` is true, and the model lists them explicitly. `int()` skips a smaller set around its digits: the same characters without U+001C to U+001F. Nothing else of Unicode is modelled.
- Decimal.PyInt: the limit of 4300 digits on `int()`, present since Python 3.11, is not modelled. It is an interpreter setting, and `str(n)` is subject to the same limit. A version field with more digits therefore parses here, where such an interpreter would read the core as `(0, 0, 0)`.
- Version.ParseGetVersion: the round trip needs the written string to neither start nor end with whitespace. Otherwise the strip in `parse_version` removes that whitespace from the base, the prerelease or the build.
- Version.VersionRoundTrip: the prerelease must not contain `+`, and the written string must not end in whitespace. Otherwise `parse_version` splits the build off at the prerelease's `+`, or its strip shortens the last field.
- Version.BuildIgnored: the version must not end in whitespace. `TrailingWhitespaceBuildMatters` shows that build metadata does change the result when it does.
- Version.ParseWithBuild: the version must not end in whitespace. Otherwise that whitespace is stripped only when no build follows.
- Editor.ReturnOnFirstLine: on line 1 the range `0.0` to `0.end` names no line. Tk moves a line number below 1 to the first character of line 1, so the range is empty. The model takes this Tk rule as given; it does not model Tk's index parser.
- Editor.KeyPressIsInsertion: a selection is not modelled, because `insert` does not replace it.
- Editor.ReturnIndents: the gutter itself does not gain a line when Return is typed. The line-number widget binds `<KeyRelease>` to its redraw at GUI/code_editor.py:41, but the editor binds `<KeyRelease>` on the same text widget again at GUI/code_editor.py:119, which replaces that binding; the new handler only highlights syntax. The gutter is redrawn on click, mouse wheel and resize only, so the lemma speaks of the labels the next redraw computes.

=== FILE: decimal.dfy ===
/**
 * Decimal digits: rendering a natural number the way Python's `str(n)`
 * does, and reading one back the way Python's `int(s)` does.
 */
module Decimal {
  import opened Wrappers
  import opened Text

  predicate IsDigit(c: char) {
    '0' <= c <= '9'
  }

  predicate AllDigits(s: string) {
    forall i | 0 <= i < |s| :: IsDigit(s[i])
  }

  function DigitChar(d: nat): (c: char)
    requires d < 10
    ensures IsDigit(c) && c as int - '0' as int == d
  {
    ('0' as int + d) as char
  }

  /** Value of a string of ASCII digits, most significant first. */
  function DigitsValue(s: string): nat
    requires AllDigits(s)
  {
    if s == [] then 0 else 10 * DigitsValue(s[..|s| - 1]) + (s[|s| - 1] as int - '0' as int)
  }

  /** `str(n)`: the shortest decimal spelling of `n`. */
  function NatToString(n: nat): (r: string)
    ensures |r| > 0 && AllDigits(r)
    ensures |r| > 1 ==> r[0] != '0'
  {
    if n < 10 then [DigitChar(n)] else NatToString(n / 10) + [DigitChar(n % 10)]
  }

  /** Reading back the spelling of `n` gives `n`. */
  lemma {:induction false} NatToStringValue(n: nat)
    ensures DigitsValue(NatToString(n)) == n
  {
    if n >= 10 {
      var r := NatToString(n);
      NatToStringValue(n / 10);
      assert r[..|r| - 1] == NatToString(n / 10);
    }
  }

  /** Distinct numbers have distinct spellings. */
  lemma NatToStringInjective(a: nat, b: nat)
    requires NatToString(a) == NatToString(b)
    ensures a == b
  {
    NatToStringValue(a);
    NatToStringValue(b);
  }

  /**
   * The body Python's `int()` accepts once surrounding whitespace is gone,
   * read from some position on: digits, where each underscore is followed
   * by a digit.
   */
  predicate DigitRun(s: string) {
    s == [] || ((IsDigit(s[0]) || (s[0] == '_' && |s| > 1 && IsDigit(s[1]))) && DigitRun(s[1..]))
  }

  /** A whole integer body: non-empty, starts with a digit, underscores only between digits. */
  predicate IsIntBody(s: string) {
    |s| > 0 && IsDigit(s[0]) && DigitRun(s)
  }

  lemma {:induction false} DigitRunChars(s: string)
    requires DigitRun(s)
    ensures forall i | 0 <= i < |s| :: IsDigit(s[i]) || s[i] == '_'
  {
    if s != [] {
      DigitRunChars(s[1..]);
      assert forall i | 1 <= i < |s| :: s[i] == s[1..][i - 1];
    }
  }

  /** The digits of `s` with every underscore removed. */
  function DropUnderscores(s: string): (r: string)
    ensures (forall i | 0 <= i < |s| :: IsDigit(s[i]) || s[i] == '_') ==> AllDigits(r)
  {
    if s == [] then []
    else (if s[0] == '_' then [] else [s[0]]) + DropUnderscores(s[1..])
  }

  /** The ASCII information separators U+001C to U+001F. */
  predicate IsInfoSeparator(c: char) {
    '\U{1C}' <= c <= '\U{1F}'
  }

  /**
   * The whitespace `int()` skips around its digits. Characters below U+007F
   * are kept as they are and only tab, newline, vertical tab, form feed,
   * carriage return and space are skipped among them, while whitespace
   * above U+007F is turned into a space first. So it is `str.isspace()`
   * without the information separators.
   */
  predicate IsIntSpace(c: char) {
    IsSpace(c) && !IsInfoSeparator(c)
  }

  /** Every character of `w` is whitespace `int()` skips. */
  predicate IntPadding(w: string) {
    forall i | 0 <= i < |w| :: IsIntSpace(w[i])
  }

  /** The value of an integer body: its digits with the underscores dropped. */
  function IntValue(t: string): nat
    requires IsIntBody(t)
  {
    DigitRunChars(t);
    DigitsValue(DropUnderscores(t))
  }

  /**
   * Python's `int(s)` on a string, or `None` where it raises ValueError:
   * surrounding whitespace is ignored, underscores may separate digits, and
   * an information separator anywhere makes it raise.
   */
  function PyInt(s: string): (r: Option<nat>)
    ensures r.Some? <==> IsIntBody(Strip(s)) && forall i | 0 <= i < |s| :: !IsInfoSeparator(s[i])
    ensures r.Some? ==> var a := LeadingSpaceCount(s); var t := Strip(s);
      && r.value == IntValue(t)
      && s == s[..a] + t + s[a + |t|..]
      && IntPadding(s[..a]) && IntPadding(s[a + |t|..])
  {
    var t := Strip(s);
    if IsIntBody(t) && forall i | 0 <= i < |s| :: !IsInfoSeparator(s[i]) then
      StripSplits(s);
      PaddingAroundStrip(s);
      Some(IntValue(t))
    else
      None
  }

  lemma {:induction false} DigitRunEndsInDigit(s: string)
    requires DigitRun(s) && |s| > 0
    ensures IsDigit(s[|s| - 1])
  {
    if |s| > 1 {
      DigitRunEndsInDigit(s[1..]);
    }
  }

  /** An integer body with `int()` whitespace around it reads as the body's value. */
  lemma PyIntPadded(w1: string, t: string, w2: string)
    requires IntPadding(w1) && IsIntBody(t) && IntPadding(w2)
    ensures PyInt(w1 + t + w2) == Some(IntValue(t))
  {
    DigitRunEndsInDigit(t);
    DigitRunChars(t);
    StripAround(w1, t, w2);
    NoInfoSeparatorConcat(w1, t, w2);
  }

  /** No information separator in the padding or the body means none in the whole. */
  lemma NoInfoSeparatorConcat(w1: string, t: string, w2: string)
    requires IntPadding(w1) && IntPadding(w2)
    requires forall i | 0 <= i < |t| :: IsDigit(t[i]) || t[i] == '_'
    ensures forall i | 0 <= i < |w1 + t + w2| :: !IsInfoSeparator((w1 + t + w2)[i])
  {
    var s := w1 + t + w2;
    forall i | 0 <= i < |s| ensures !IsInfoSeparator(s[i]) {
      if i < |w1| {
        assert s[i] == w1[i];
      } else if i < |w1| + |t| {
        assert s[i] == t[i - |w1|];
      } else {
        assert s[i] == w2[i - |w1| - |t|];
      }
    }
  }

  /** A run of `str.isspace()` whitespace without information separators is `int()` padding. */
  lemma IntPaddingSlice(s: string, lo: nat, hi: nat)
    requires lo <= hi <= |s|
    requires forall i | lo <= i < hi :: IsSpace(s[i])
    requires forall i | 0 <= i < |s| :: !IsInfoSeparator(s[i])
    ensures IntPadding(s[lo..hi])
  {
    var w := s[lo..hi];
    forall i | 0 <= i < |w| ensures IsIntSpace(w[i]) {
      assert w[i] == s[lo + i];
    }
  }

  /** Without information separators, what the strip removes is `int()` padding. */
  lemma PaddingAroundStrip(s: string)
    requires forall i | 0 <= i < |s| :: !IsInfoSeparator(s[i])
    ensures LeadingSpaceCount(s) + |Strip(s)| <= |s|
    ensures IntPadding(s[..LeadingSpaceCount(s)])
    ensures IntPadding(s[LeadingSpaceCount(s) + |Strip(s)|..])
  {
    var a := LeadingSpaceCount(s);
    var b := a + |Strip(s)|;
    IntPaddingSlice(s, 0, a);
    assert s[..a] == s[0..a];
    IntPaddingSlice(s, b, |s|);
    assert s[b..] == s[b..|s|];
  }

  /** An information separator is `str.isspace()` whitespace, yet `int()` raises on it. */
  lemma PyIntRejectsInfoSeparator(s: string, c: char)
    requires IsInfoSeparator(c)
    ensures IsSpace(c)
    ensures PyInt(s + [c]) == None && PyInt([c] + s) == None
  {
    assert (s + [c])[|s|] == c;
    assert ([c] + s)[0] == c;
  }

  lemma {:induction false} DigitsAreDigitRun(s: string)
    requires AllDigits(s)
    ensures DigitRun(s)
    ensures DropUnderscores(s) == s
  {
    if s != [] {
      DigitsAreDigitRun(s[1..]);
      assert s == [s[0]] + s[1..];
    }
  }

  /** `int(str(n)) == n`. */
  lemma PyIntOfNatToString(n: nat)
    ensures PyInt(NatToString(n)) == Some(n)
  {
    var r := NatToString(n);
    StripTrimmed(r);
    DigitsAreDigitRun(r);
    NatToStringValue(n);
  }

  /** Python's `int("")` raises: the empty field has no value. */
  lemma PyIntEmpty()
    ensures PyInt([]) == None
  {
  }
}

=== FILE: editor.dfy ===
/**
 * The code editor's key handling and line-number gutter, as pure edits on
 * an abstract text buffer: auto-indent on Return, auto-closing of brackets
 * and quotes, Tab as four spaces, and the gutter's line labels.
 */
module Editor {
  import opened Text
  import opened Decimal

  /**
   * The text widget's content from `1.0` to `end-1c` (so without the
   * widget's own final newline) and the insertion cursor as a character
   * offset into it.
   */
  datatype Buffer = Buffer(text: string, cursor: nat) {
    predicate Valid() {
      cursor <= |text|
    }
  }

  /** The `keysym` and `char` fields of a `<Key>` event; `char` may be empty. */
  datatype KeyEvent = KeyEvent(keysym: string, ch: string)

  /** The handler returns `'break'` with the edited buffer, or `None` so that Tk's default binding runs. */
  datatype KeyResult = Break(buffer: Buffer) | Propagate

  /**
   * The characters whose key presses are intercepted. The source literal
   * writes the backquote as an unrecognised escape, which Python keeps
   * as a backslash followed by a backquote, so the backslash is here too.
   */
  const TriggerChars: string := "\"'\\`(){}[]"

  /** Openers and the partner inserted after each. */
  const Pairs: map<string, string> :=
    map["\"" := "\"", "'" := "'", "`" := "`", "(" := ")", "[" := "]", "{" := "}"]

  /** What Tab inserts. */
  const TabText: string := "    "

  /** The buffer's lines, as `split("\n")` gives them. */
  function Lines(text: string): seq<string> {
    SplitOn(text, '\n')
  }

  /** The lines of the text before the cursor; the last one ends at the cursor. */
  function LinesBeforeCursor(b: Buffer): (r: seq<string>)
    requires b.Valid()
    ensures |r| >= 1
  {
    Lines(b.text[..b.cursor])
  }

  /** The cursor's 1-based line number, as the `line` part of Tk's `insert` index. */
  function CursorLine(b: Buffer): (n: nat)
    requires b.Valid()
    ensures 1 <= n <= |Lines(b.text)|
  {
    CountAppend(b.text[..b.cursor], b.text[b.cursor..], '\n');
    assert b.text == b.text[..b.cursor] + b.text[b.cursor..];
    |LinesBeforeCursor(b)|
  }

  /** The cursor's 0-based column, as the `char` part of Tk's `insert` index. */
  function CursorColumn(b: Buffer): nat
    requires b.Valid()
  {
    |Last(LinesBeforeCursor(b))|
  }

  /** `text.insert(INSERT, s)`: the insert mark moves past the inserted text. */
  function InsertAtCursor(b: Buffer, s: string): (r: Buffer)
    requires b.Valid()
    ensures r.Valid()
  {
    Buffer(b.text[..b.cursor] + s + b.text[b.cursor..], b.cursor + |s|)
  }

  /**
   * `b2` is `b` with some text inserted at the cursor: the text before the
   * cursor is unchanged, the text after it is shifted intact, and the
   * cursor lands inside or at the end of the inserted run.
   */
  predicate IsInsertion(b: Buffer, b2: Buffer)
    requires b.Valid()
  {
    var n := |b2.text| - |b.text|;
    && n >= 0
    && b2.text[..b.cursor] == b.text[..b.cursor]
    && b2.text[b.cursor + n..] == b.text[b.cursor..]
    && b.cursor <= b2.cursor <= b.cursor + n
  }

  /**
   * The text `auto_indent` reads as the line above the cursor's line. On
   * line 1 both ends of the range, `0.0` and `0.end`, name no line, and Tk
   * moves each of them to the first character of line 1, so the range is
   * empty.
   */
  function LineAbove(b: Buffer): string
    requires b.Valid()
  {
    if CursorLine(b) >= 2 then Lines(b.text)[CursorLine(b) - 2] else []
  }

  /**
   * `auto_indent`: insert a newline and as many spaces as the line above
   * the cursor's line has leading whitespace characters.
   */
  function AutoIndent(b: Buffer): (r: Buffer)
    requires b.Valid()
    ensures r.Valid() && IsInsertion(b, r)
    ensures var k := LeadingSpaceCount(LineAbove(b));
      && |r.text| == |b.text| + 1 + k
      && r.cursor == b.cursor + 1 + k
      && r.text[b.cursor] == '\n'
      && forall i | b.cursor < i < r.cursor :: r.text[i] == ' '
  {
    var indent := "\n" + Spaces(LeadingSpaceCount(LineAbove(b)));
    InsertIsInsertion(b, indent);
    var r := InsertAtCursor(b, indent);
    assert forall i | b.cursor <= i < r.cursor :: r.text[i] == indent[i - b.cursor];
    r
  }

  /**
   * `auto_close_bracket`: an opener is inserted with its partner and the
   * cursor is put back between them; any other string inserts nothing.
   */
  function AutoCloseBracket(b: Buffer, ch: string): (r: Buffer)
    requires b.Valid()
    ensures r.Valid()
    ensures ch !in Pairs ==> r == b
    ensures ch in Pairs ==>
      && IsInsertion(b, r)
      && |r.text| == |b.text| + 2
      && r.cursor == b.cursor + 1
      && r.text[b.cursor..r.cursor] == ch
      && r.text[r.cursor..r.cursor + 1] == Pairs[ch]
  {
    if ch in Pairs then
      PairLengths(ch);
      InsertIsInsertion(b, ch + Pairs[ch]);
      var inserted := InsertAtCursor(b, ch + Pairs[ch]);
      assert inserted.text[b.cursor..b.cursor + 2] == ch + Pairs[ch];
      Buffer(inserted.text, inserted.cursor - 1)
    else b
  }

  /** Each opener and each partner is one character. */
  lemma PairLengths(ch: string)
    requires ch in Pairs
    ensures |ch| == 1 && |Pairs[ch]| == 1
  {
    PairsKeys();
  }

  /**
   * `on_key_press`: Return first, then the substring test of the event's
   * character against the trigger characters, then Tab; every other key
   * goes on to Tk's default binding.
   */
  function OnKeyPress(b: Buffer, ev: KeyEvent): (r: KeyResult)
    requires b.Valid()
    ensures r.Break? <==> ev.keysym == "Return" || IsSubstring(ev.ch, TriggerChars) || ev.keysym == "Tab"
    ensures r.Break? ==> r.buffer.Valid()
  {
    if ev.keysym == "Return" then Break(AutoIndent(b))
    else if IsSubstring(ev.ch, TriggerChars) then Break(AutoCloseBracket(b, ev.ch))
    else if ev.keysym == "Tab" then Break(InsertAtCursor(b, TabText))
    else Propagate
  }

  /** The gutter's labels for the content: `"1"` to `"N"`, one per line. */
  function LineLabels(text: string): (r: seq<string>)
    ensures |r| == Count(text, '\n') + 1
    ensures forall i | 0 <= i < |r| :: r[i] == NatToString(i + 1)
  {
    seq(|Lines(text)|, (i: nat) => NatToString(i + 1))
  }

  /** The insertion primitive changes nothing but the inserted run. */
  lemma InsertIsInsertion(b: Buffer, s: string)
    requires b.Valid()
    ensures IsInsertion(b, InsertAtCursor(b, s))
  {
    var p, t := b.text[..b.cursor], b.text[b.cursor..];
    var r := InsertAtCursor(b, s);
    assert r.text == p + s + t;
    assert r.text[..b.cursor] == p;
    assert r.text[b.cursor + |s|..] == t;
  }

  /** Every key the handler consumes is a pure insertion at the cursor. */
  lemma KeyPressIsInsertion(b: Buffer, ev: KeyEvent)
    requires b.Valid()
    ensures OnKeyPress(b, ev).Break? ==> IsInsertion(b, OnKeyPress(b, ev).buffer)
  {
    if ev.keysym == "Return" {
      InsertIsInsertion(b, "\n" + Spaces(LeadingSpaceCount(LineAbove(b))));
    } else if IsSubstring(ev.ch, TriggerChars) {
      if ev.ch in Pairs {
        InsertIsInsertion(b, ev.ch + Pairs[ev.ch]);
      }
    } else if ev.keysym == "Tab" {
      InsertIsInsertion(b, TabText);
    }
  }

  /** A one-character event string is intercepted exactly when its character is a trigger. */
  lemma TriggerIff(c: char)
    ensures IsSubstring([c], TriggerChars) <==> c in TriggerChars
  {
    SingleCharSubstring(c, TriggerChars);
  }

  /**
   * Closers, the backslash and an empty character string are intercepted
   * but have no partner: the handler consumes them and leaves the buffer
   * as it was.
   */
  lemma SwallowedKeys(b: Buffer, ev: KeyEvent)
    requires b.Valid()
    requires ev.keysym != "Return"
    requires ev.ch in {"", ")", "]", "}", "\\"}
    ensures OnKeyPress(b, ev) == Break(b)
  {
    if ev.ch == "" {
      EmptyIsSubstring(TriggerChars);
    } else {
      assert ev.ch == [ev.ch[0]];
      UnpairedIsTrigger(ev.ch[0]);
    }
    assert OnKeyPress(b, ev) == Break(AutoCloseBracket(b, ev.ch));
  }

  /** The trigger characters without a partner. */
  lemma UnpairedIsTrigger(c: char)
    requires c == ')' || c == ']' || c == '}' || c == '\\'
    ensures IsSubstring([c], TriggerChars) && [c] !in Pairs
  {
    PairsKeys();
    assert TriggerChars[2] == '\\' && TriggerChars[5] == ')' && TriggerChars[7] == '}' && TriggerChars[9] == ']';
    TriggerIff(c);
  }

  /** The openers, as a set. */
  lemma PairsKeys()
    ensures Pairs.Keys == {"\"", "'", "`", "(", "[", "{"}
  {
  }

  /** An opener inserts itself and its partner and leaves the cursor between them. */
  lemma OpenerInsertsPair(b: Buffer, ev: KeyEvent)
    requires b.Valid()
    requires ev.keysym != "Return"
    requires ev.ch in Pairs
    ensures OnKeyPress(b, ev).Break?
    ensures var after := OnKeyPress(b, ev).buffer;
      && after.text == b.text[..b.cursor] + ev.ch + Pairs[ev.ch] + b.text[b.cursor..]
      && after.cursor == b.cursor + 1
      && after.text[..after.cursor] == b.text[..b.cursor] + ev.ch
      && after.text[after.cursor..] == Pairs[ev.ch] + b.text[b.cursor..]
  {
    OpenerIsTrigger(ev.ch);
    var after := AutoCloseBracket(b, ev.ch);
    assert OnKeyPress(b, ev) == Break(after);
    var p, t := b.text[..b.cursor], b.text[b.cursor..];
    assert after.text == p + ev.ch + (Pairs[ev.ch] + t);
  }

  /** Every opener is intercepted. */
  lemma OpenerIsTrigger(ch: string)
    requires ch in Pairs
    ensures IsSubstring(ch, TriggerChars)
  {
    var i := if ch == "\"" then 0 else if ch == "'" then 1 else if ch == "`" then 3
      else if ch == "(" then 4 else if ch == "[" then 8 else 6;
    assert ch == [TriggerChars[i]];
    TriggerIff(TriggerChars[i]);
  }

  /**
   * The lines wholly before the cursor's line are lines of the buffer:
   * the line above the cursor is read in full.
   */
  lemma LinesAboveCursor(b: Buffer)
    requires b.Valid()
    ensures forall k | 0 <= k < CursorLine(b) - 1 :: Lines(b.text)[k] == LinesBeforeCursor(b)[k]
  {
    var p, t := b.text[..b.cursor], b.text[b.cursor..];
    assert b.text == p + t;
    SplitAppend(p, t, '\n');
  }

  /** Splitting a prefix that ends in a newline and `k` spaces. */
  lemma LinesAfterIndent(p: string, k: nat)
    ensures |Lines(p + "\n" + Spaces(k))| == |Lines(p)| + 1
    ensures Last(Lines(p + "\n" + Spaces(k))) == Spaces(k)
  {
    var ins := "\n" + Spaces(k);
    assert ins[0] == '\n' && ins[1..] == Spaces(k);
    SplitAbsent(Spaces(k), '\n');
    assert Lines(ins) == [[], Spaces(k)];
    SplitAppend(p, ins, '\n');
    assert p + "\n" + Spaces(k) == p + ins;
  }

  /** Counting newlines around an insertion. */
  lemma CountInsert(b: Buffer, s: string)
    requires b.Valid()
    ensures Count(InsertAtCursor(b, s).text, '\n') == Count(b.text, '\n') + Count(s, '\n')
  {
    var p, t := b.text[..b.cursor], b.text[b.cursor..];
    assert b.text == p + t;
    CountAppend(p, t, '\n');
    CountAppend(p, s, '\n');
    CountAppend(p + s, t, '\n');
  }

  /**
   * Return splits the cursor's line at the cursor and indents the new
   * line by as many spaces as the line above the cursor's line has
   * leading whitespace characters, tabs counting one each; the buffer gains
   * one line, and so do the labels `update_line_numbers` computes from it.
   */
  lemma ReturnIndents(b: Buffer, ev: KeyEvent)
    requires b.Valid() && ev.keysym == "Return" && CursorLine(b) >= 2
    ensures OnKeyPress(b, ev).Break?
    ensures var k := LeadingSpaceCount(Lines(b.text)[CursorLine(b) - 2]);
      var after := OnKeyPress(b, ev).buffer;
      && after.text == b.text[..b.cursor] + "\n" + Spaces(k) + b.text[b.cursor..]
      && CursorLine(after) == CursorLine(b) + 1
      && CursorColumn(after) == k
      && |Lines(after.text)| == |Lines(b.text)| + 1
      && |LineLabels(after.text)| == |LineLabels(b.text)| + 1
  {
    ReturnInsertsIndent(b, ev);
  }

  /** On the first line, where there is no line above, Return inserts a bare newline. */
  lemma ReturnOnFirstLine(b: Buffer, ev: KeyEvent)
    requires b.Valid() && ev.keysym == "Return" && CursorLine(b) == 1
    ensures OnKeyPress(b, ev) == Break(InsertAtCursor(b, "\n"))
    ensures CursorLine(InsertAtCursor(b, "\n")) == 2
    ensures CursorColumn(InsertAtCursor(b, "\n")) == 0
  {
    assert LineAbove(b) == [];
    NoIndentIsNewline();
    assert AutoIndent(b) == InsertAtCursor(b, "\n");
    ReturnInsertsIndent(b, ev);
  }

  /** With nothing to copy, the inserted text is a lone newline. */
  lemma NoIndentIsNewline()
    ensures LeadingSpaceCount([]) == 0
    ensures "\n" + Spaces(LeadingSpaceCount([])) == "\n"
  {
    assert Spaces(0) == [];
  }

  /** What Return does, with the indent taken from `LineAbove`. */
  lemma ReturnInsertsIndent(b: Buffer, ev: KeyEvent)
    requires b.Valid() && ev.keysym == "Return"
    ensures OnKeyPress(b, ev).Break?
    ensures var k := LeadingSpaceCount(LineAbove(b));
      var after := OnKeyPress(b, ev).buffer;
      && after.text == b.text[..b.cursor] + "\n" + Spaces(k) + b.text[b.cursor..]
      && CursorLine(after) == CursorLine(b) + 1
      && CursorColumn(after) == k
      && |Lines(after.text)| == |Lines(b.text)| + 1
      && |LineLabels(after.text)| == |LineLabels(b.text)| + 1
  {
    var k := LeadingSpaceCount(LineAbove(b));
    var ins := "\n" + Spaces(k);
    var after := OnKeyPress(b, ev).buffer;
    var p := b.text[..b.cursor];
    assert after == InsertAtCursor(b, ins);
    assert after.text[..after.cursor] == p + "\n" + Spaces(k);
    LinesAfterIndent(p, k);
    assert ins[0] == '\n' && ins[1..] == Spaces(k);
    CountAbsent(Spaces(k), '\n');
    CountInsert(b, ins);
  }

  /** Tab inserts four spaces and stays on the cursor's line. */
  lemma TabInsertsSpaces(b: Buffer, ev: KeyEvent)
    requires b.Valid() && ev.keysym == "Tab" && !IsSubstring(ev.ch, TriggerChars)
    ensures OnKeyPress(b, ev).Break?
    ensures var after := OnKeyPress(b, ev).buffer;
      && after.text == b.text[..b.cursor] + "    " + b.text[b.cursor..]
      && after.cursor == b.cursor + 4
      && CursorLine(after) == CursorLine(b)
      && CursorColumn(after) == CursorColumn(b) + 4
      && |Lines(after.text)| == |Lines(b.text)|
  {
    var after := OnKeyPress(b, ev).buffer;
    var p := b.text[..b.cursor];
    assert after == InsertAtCursor(b, TabText);
    assert after.text[..after.cursor] == p + TabText;
    SplitAbsent(TabText, '\n');
    SplitAppend(p, TabText, '\n');
    CountAbsent(TabText, '\n');
    CountInsert(b, TabText);
  }

  /** The tab key's own character is not a trigger, so Tab reaches its branch. */
  lemma TabCharacterPassesTriggers()
    ensures !IsSubstring("\t", TriggerChars)
  {
    TriggerIff('\t');
  }

  /**
   * The gutter numbers the buffer's lines in order: one label per line,
   * label `i` reading back as `i + 1`.
   */
  lemma LabelsNumberLines(text: string)
    ensures |LineLabels(text)| == |Lines(text)|
    ensures forall i | 0 <= i < |LineLabels(text)| :: DigitsValue(LineLabels(text)[i]) == i + 1
  {
    forall i | 0 <= i < |LineLabels(text)|
      ensures DigitsValue(LineLabels(text)[i]) == i + 1
    {
      NatToStringValue(i + 1);
    }
  }

  /** An empty buffer still shows the label of its one line. */
  lemma EmptyBufferLabel()
    ensures LineLabels([]) == ["1"]
  {
    assert NatToString(1) == "1";
  }
}

=== FILE: lang.dfy ===
/**
 * The translation layer: two string tables, the current-language state,
 * and `tr`, which looks a key up and fills `{name}` placeholders the way
 * Python's `str.format(**kwargs)` does.
 */
module Lang {
  import opened Wrappers
  import opened Text
  import opened Decimal

  /** The English table. */
  const EnTable: map<string, string> := map[
    "app_title" := "Base",
    "success" := "SUCCESS: {msg}",
    "error" := "ERROR: {msg}",
    "file" := "File",
    "exit" := "Exit",
    "log" := "Log",
    "view_log" := "View Log",
    "help" := "Help",
    "about" := "About",
    "sponsor" := "Sponsor",
    "version" := "Version",
    "language" := "Language",
    "log_viewer_title" := "Application Log",
    "close" := "Close",
    "log_file_not_found" := "Log file not found.",
    "no_log_entries" := "No log entries for {level}",
    "usage_tab" := "Usage",
    "features_tab" := "Features",
    "sponsor_on_github" := "Sponsor on GitHub",
    "join_discord" := "Join Discord",
    "buy_me_a_coffee" := "Buy Me a Coffee",
    "join_the_patreon" := "Join the Patreon",
    "about_title" := "About",
    "about_project" := "Project",
    "about_description" := "A modern Python GUI app for demonstration and productivity.",
    "copyright" := "\U{A9} 2025 Nsfr750",
    "show_version" := "Show Version",
    "version_info" := "Version Information",
    "help_usage" := "To start the application, run main.py from the project root.\nNavigate the menu bar for Help, About, Log Viewer, and more.\nUse the Log Viewer to see and filter application logs in real time.\nCustom log entries can be added in your code using log_info, log_warning, log_error.\nCommon troubleshooting: If you see import errors, ensure you are running from the root directory.\n",
    "help_features" := "- Centralized logging system: info, warning, error, and uncaught exceptions are logged to traceback.log.\n- Log Viewer dialog with real-time filtering: view ALL, INFO, WARNING, or ERROR entries.\n- Use log_info, log_warning, log_error for custom log entries in your code.\n- Robust error handling and extensible design.\n"
  ]

  /** The Italian table. */
  const ItTable: map<string, string> := map[
    "app_title" := "Base",
    "success" := "SUCCESSO: {msg}",
    "error" := "ERRORE: {msg}",
    "file" := "File",
    "exit" := "Esci",
    "log" := "Log",
    "view_log" := "Visualizza Log",
    "help" := "Aiuto",
    "about" := "Informazioni",
    "sponsor" := "Sostieni",
    "version" := "Versione",
    "language" := "Lingua",
    "log_viewer_title" := "Registro Applicazione",
    "close" := "Chiudi",
    "log_file_not_found" := "File di log non trovato.",
    "no_log_entries" := "Nessuna voce di log per {level}",
    "usage_tab" := "Utilizzo",
    "features_tab" := "Funzionalit\U{E0}",
    "sponsor_on_github" := "Sponsorizza su GitHub",
    "join_discord" := "Unisciti a Discord",
    "buy_me_a_coffee" := "Offrimi un caff\U{E8}",
    "join_the_patreon" := "Unisciti a Patreon",
    "about_title" := "Informazioni",
    "about_project" := "Progetto",
    "about_description" := "Un'applicazione GUI Python moderna per dimostrazione e produttivit\U{E0}.",
    "copyright" := "\U{A9} 2025 Nsfr750",
    "show_version" := "Mostra Versione",
    "version_info" := "Informazioni Versione",
    "help_usage" := "Per avviare l'applicazione, esegui main.py dalla cartella principale del progetto.\nNaviga nella barra dei menu per Aiuto, Informazioni, Visualizza Log e altro.\nUsa il Visualizzatore Log per vedere e filtrare i log dell'applicazione in tempo reale.\nPuoi aggiungere voci personalizzate nel log usando log_info, log_warning, log_error nel tuo codice.\nRisoluzione problemi: se visualizzi errori di importazione, assicurati di eseguire dalla cartella principale.\n",
    "help_features" := "- Sistema di logging centralizzato: info, warning, error ed eccezioni non gestite vengono registrate in traceback.log.\n- Finestra Visualizza Log con filtro in tempo reale: visualizza TUTTI, INFO, WARNING o ERROR.\n- Usa log_info, log_warning, log_error per aggiungere voci personalizzate nel log dal tuo codice.\n- Gestione robusta degli errori e design estendibile.\n"
  ]

  /** The table of tables, keyed by language code. */
  const Languages: map<string, map<string, string>> := map["en" := EnTable, "it" := ItTable]

  /** The one piece of state: the current language code, not necessarily a supported one. */
  datatype LangState = LangState(current: string)

  /**
   * The state at start-up. `config` is the `language` entry of the saved
   * configuration, `None` when the file is missing, unreadable or lacks
   * the entry. The stored value is not checked against the tables.
   */
  function Initial(config: Option<string>): (st: LangState)
    ensures config.None? ==> st.current == "en"
    ensures config.Some? ==> st.current == config.value
  {
    LangState(config.GetOr("en"))
  }

  /** `set_language`: store `lang` when it is supported, English otherwise. */
  function SetLanguage(st: LangState, lang: string): (r: LangState)
    ensures r.current in Languages
    ensures lang in Languages ==> r.current == lang
    ensures lang !in Languages ==> r.current == "en"
  {
    if lang in Languages then LangState(lang) else LangState("en")
  }

  /**
   * `get_language`: the stored code. When it names a table, that is the
   * table `tr` reads; otherwise `tr` reads English.
   */
  function GetLanguage(st: LangState): (r: string)
    ensures r in Languages ==> Table(st) == Languages[r]
    ensures r !in Languages ==> Table(st) == EnTable
  {
    st.current
  }

  /** `get_available_languages`: the table keys in declaration order. */
  function AvailableLanguages(): (r: seq<string>)
    ensures forall l :: l in r <==> l in Languages
    ensures forall i, j | 0 <= i < j < |r| :: r[i] != r[j]
    ensures |r| == |Languages|
  {
    LanguageCodes();
    ["en", "it"]
  }

  /** The table keys are the two language codes. */
  lemma LanguageCodes()
    ensures Languages.Keys == {"en", "it"}
    ensures |Languages| == 2
  {
    assert |Languages.Keys| == |{"en", "it"}|;
  }

  /** The table `tr` reads: the current language's, or English for an unknown code. */
  function Table(st: LangState): map<string, string> {
    if st.current in Languages then Languages[st.current] else EnTable
  }

  /** The format string `tr` uses: the translation, or the key itself when the table lacks it. */
  function Template(st: LangState, key: string): string {
    var table := Table(st);
    if key in table then table[key] else key
  }

  /** Why `str.format` raises. */
  datatype FormatError =
    | MissingArgument(name: string)
    | UnmatchedOpenBrace
    | SingleCloseBrace
    | PositionalField
    | UnsupportedField

  /** `p` followed by a successful result; an error passes through. */
  function Prepend(p: string, r: Result<string, FormatError>): Result<string, FormatError> {
    match r
    case Ok(t) => Ok(p + t)
    case Err(e) => Err(e)
  }

  /** A field name this model resolves by keyword: no conversion, format spec, attribute or index. */
  predicate PlainName(name: string) {
    forall i | 0 <= i < |name| :: name[i] !in "{}[].!:"
  }

  /** No brace of either kind in `s`. */
  predicate BraceFree(s: string) {
    '{' !in s && '}' !in s
  }

  /**
   * `s.format(**args)`, scanning left to right so the first problem met is
   * the one reported: `{{` and `}}` are literal braces, `{name}` is replaced
   * by `args[name]`, an empty or all-digit name asks for a positional
   * argument, of which `tr` passes none.
   */
  function Format(s: string, args: map<string, string>): (r: Result<string, FormatError>)
    ensures BraceFree(s) ==> r == Ok(s)
    decreases |s|
  {
    if s == [] then Ok([])
    else if s[0] == '{' then
      if |s| > 1 && s[1] == '{' then Prepend("{", Format(s[2..], args))
      else if '}' !in s[1..] then Err(UnmatchedOpenBrace)
      else
        var j := 1 + FirstIndex(s[1..], '}');
        var name := s[1..j];
        if name == [] || AllDigits(name) then Err(PositionalField)
        else if !PlainName(name) then Err(UnsupportedField)
        else if name !in args then Err(MissingArgument(name))
        else Prepend(args[name], Format(s[j + 1..], args))
    else if s[0] == '}' then
      if |s| > 1 && s[1] == '}' then Prepend("}", Format(s[2..], args))
      else Err(SingleCloseBrace)
    else
      assert s == [s[0]] + s[1..];
      Prepend([s[0]], Format(s[1..], args))
  }

  /** `tr(key, **args)`. */
  function Tr(st: LangState, key: string, args: map<string, string>): (r: Result<string, FormatError>)
    ensures BraceFree(Template(st, key)) ==> r == Ok(Template(st, key))
  {
    Format(Template(st, key), args)
  }

  /** A missing argument that `str.format` reports is one the arguments really lack. */
  lemma {:induction false} FormatMissingArgument(s: string, args: map<string, string>)
    ensures var r := Format(s, args);
      r.Err? && r.error.MissingArgument? ==> r.error.name !in args
    decreases |s|
  {
    if s != [] {
      if s[0] == '{' && |s| > 1 && s[1] == '{' {
        FormatMissingArgument(s[2..], args);
      } else if s[0] == '{' && '}' in s[1..] {
        var j := 1 + FirstIndex(s[1..], '}');
        FormatMissingArgument(s[j + 1..], args);
      } else if s[0] == '}' && |s| > 1 && s[1] == '}' {
        FormatMissingArgument(s[2..], args);
      } else if s[0] != '{' && s[0] != '}' {
        FormatMissingArgument(s[1..], args);
      }
    }
  }

  /** A brace-free prefix is copied through unchanged. */
  lemma {:induction false} FormatBraceFreePrefix(p: string, t: string, args: map<string, string>)
    requires BraceFree(p)
    ensures Format(p + t, args) == Prepend(p, Format(t, args))
  {
    if p == [] {
      assert p + t == t;
      if Format(t, args).Ok? {
        assert p + Format(t, args).value == Format(t, args).value;
      }
    } else {
      assert p + t == [p[0]] + (p[1..] + t);
      FormatPlainHead(p[0], p[1..] + t, args);
      assert p[1..] + t == (p + t)[1..];
      FormatBraceFreePrefix(p[1..], t, args);
      PrependTwice(p[0], p[1..], Format(t, args));
      assert [p[0]] + p[1..] == p;
    }
  }

  /** A character other than a brace is copied through. */
  lemma FormatPlainHead(c: char, rest: string, args: map<string, string>)
    requires c != '{' && c != '}'
    ensures Format([c] + rest, args) == Prepend([c], Format(rest, args))
  {
    assert ([c] + rest)[1..] == rest;
  }

  lemma PrependTwice(c: char, q: string, r: Result<string, FormatError>)
    ensures Prepend([c], Prepend(q, r)) == Prepend([c] + q, r)
  {
    if r.Ok? {
      assert [c] + (q + r.value) == [c] + q + r.value;
    }
  }

  /**
   * One `{name}` placeholder between literal text: it is replaced by the
   * supplied argument, and a missing argument is an error.
   */
  lemma FormatOneField(p: string, name: string, q: string, args: map<string, string>)
    requires BraceFree(p) && BraceFree(q)
    requires name != [] && !AllDigits(name) && PlainName(name)
    ensures Format(p + "{" + name + "}" + q, args) ==
      if name in args then Ok(p + args[name] + q) else Err(MissingArgument(name))
  {
    var t := "{" + name + "}" + q;
    Regroup(p, t, name, q);
    FormatBraceFreePrefix(p, t, args);
    FormatFieldFirst(name, q, args);
    if name in args {
      Regroup(p, args[name] + q, args[name], q);
    }
  }

  lemma Regroup(p: string, t: string, a: string, q: string)
    requires t == a + q || t == "{" + a + "}" + q
    ensures t == a + q ==> p + t == p + a + q
    ensures t == "{" + a + "}" + q ==> p + t == p + "{" + a + "}" + q
  {
  }

  /** A text that opens with a named field followed by brace-free text. */
  lemma FormatFieldFirst(name: string, q: string, args: map<string, string>)
    requires BraceFree(q)
    requires name != [] && !AllDigits(name) && PlainName(name)
    ensures Format("{" + name + "}" + q, args) ==
      if name in args then Ok(args[name] + q) else Err(MissingArgument(name))
  {
    var t := "{" + name + "}" + q;
    assert t[0] == '{';
    assert t[1] == name[0];
    assert t[1..] == name + "}" + q;
    SplitFirstUnique(name, q, '}');
    var j := 1 + FirstIndex(t[1..], '}');
    assert j == 1 + |name|;
    assert t[1..j] == name;
    assert t[j + 1..] == q;
  }

  /** `s` with every brace doubled, so that formatting gives `s` back. */
  function Escape(s: string): string {
    if s == [] then []
    else (if s[0] == '{' then "{{" else if s[0] == '}' then "}}" else [s[0]]) + Escape(s[1..])
  }

  /** Doubled braces are literal braces: formatting undoes `Escape`, whatever arguments are passed. */
  lemma {:induction false} FormatEscape(s: string, args: map<string, string>)
    ensures Format(Escape(s), args) == Ok(s)
  {
    if s != [] {
      var e := Escape(s);
      var rest := Escape(s[1..]);
      FormatEscape(s[1..], args);
      assert s == [s[0]] + s[1..];
      if s[0] == '{' {
        assert e == "{{" + rest;
        assert e[2..] == rest;
      } else if s[0] == '}' {
        assert e == "}}" + rest;
        assert e[2..] == rest;
      } else {
        assert e == [s[0]] + rest;
        assert e[1..] == rest;
      }
    }
  }

  /** Arguments beyond those the template names are ignored. */
  lemma {:induction false} FormatExtraArgs(s: string, a: map<string, string>, b: map<string, string>)
    requires forall k | k in a :: k in b && b[k] == a[k]
    requires Format(s, a).Ok?
    ensures Format(s, b) == Format(s, a)
    decreases |s|
  {
    if s == [] {
    } else if s[0] == '{' {
      if |s| > 1 && s[1] == '{' {
        FormatExtraArgs(s[2..], a, b);
      } else {
        var j := 1 + FirstIndex(s[1..], '}');
        FormatExtraArgs(s[j + 1..], a, b);
      }
    } else if s[0] == '}' {
      FormatExtraArgs(s[2..], a, b);
    } else {
      FormatExtraArgs(s[1..], a, b);
    }
  }

  /** Both tables define the same keys. */
  lemma SameKeys()
    ensures EnTable.Keys == ItTable.Keys
  {
  }

  /** A key is translated in one language exactly when it is translated in every other. */
  lemma TranslatedEverywhereOrNowhere(key: string, st1: LangState, st2: LangState)
    ensures key in Table(st1) <==> key in Table(st2)
  {
    SameKeys();
  }

  /** An unsupported current language translates exactly as English does. */
  lemma TrUnknownLanguage(st: LangState, key: string, args: map<string, string>)
    requires st.current !in Languages
    ensures Tr(st, key, args) == Tr(LangState("en"), key, args)
  {
  }

  /**
   * A key missing from the current table is its own text; there is no
   * per-key fallback to another table, and without braces it comes back
   * verbatim.
   */
  lemma TrUntranslatedKey(st: LangState, key: string, args: map<string, string>)
    requires key !in EnTable
    ensures Template(st, key) == key
    ensures BraceFree(key) ==> Tr(st, key, args) == Ok(key)
  {
    SameKeys();
    if BraceFree(key) {
      assert Format(key, args) == Ok(key);
    }
  }

  /** The text of the `error` entry in the table `tr` reads. */
  lemma ErrorTemplate(st: LangState)
    ensures Template(st, "error") == ErrorPrefix(st) + "{msg}"
  {
    EntryEn();
    EntryIt();
    if st.current == "it" {
      assert Table(st) == ItTable;
    } else {
      assert Table(st) == EnTable;
    }
  }

  lemma EntryEn()
    ensures "error" in EnTable && EnTable["error"] == "ERROR: {msg}"
  {
  }

  lemma EntryIt()
    ensures "error" in ItTable && ItTable["error"] == "ERRORE: {msg}"
  {
  }

  /** `tr` on a key whose text has a single placeholder between brace-free text. */
  lemma TrOneField(st: LangState, key: string, p: string, name: string, q: string, args: map<string, string>)
    requires Template(st, key) == p + "{" + name + "}" + q
    requires BraceFree(p) && BraceFree(q)
    requires name != [] && !AllDigits(name) && PlainName(name)
    ensures Tr(st, key, args) ==
      if name in args then Ok(p + args[name] + q) else Err(MissingArgument(name))
  {
    FormatOneField(p, name, q, args);
  }

  /** The fixed text in front of the `error` placeholder. */
  function ErrorPrefix(st: LangState): (p: string)
    ensures BraceFree(p)
  {
    if st.current == "it" then "ERRORE: " else "ERROR: "
  }

  /** Formatting brace-free text followed by the `{msg}` placeholder. */
  lemma FormatMsgField(prefix: string, args: map<string, string>)
    requires BraceFree(prefix)
    ensures "msg" in args ==> Format(prefix + "{msg}", args) == Ok(prefix + args["msg"])
    ensures "msg" !in args ==> Format(prefix + "{msg}", args) == Err(MissingArgument("msg"))
  {
    var name := "msg";
    assert !IsDigit(name[0]);
    assert prefix + "{msg}" == prefix + "{" + name + "}" + [];
    FormatOneField(prefix, name, [], args);
    if name in args {
      assert prefix + args[name] + [] == prefix + args[name];
    }
  }

  /** `tr('error', msg=m)` fills the placeholder; without `msg` it raises. */
  lemma TrError(st: LangState, args: map<string, string>)
    ensures "msg" in args ==> Tr(st, "error", args) == Ok(ErrorPrefix(st) + args["msg"])
    ensures "msg" !in args ==> Tr(st, "error", args) == Err(MissingArgument("msg"))
  {
    ErrorTemplate(st);
    FormatMsgField(ErrorPrefix(st), args);
  }

  /** After `set_language`, the stored language is always one `tr` has a table for. */
  lemma SetLanguageSupported(st: LangState, lang: string)
    ensures GetLanguage(SetLanguage(st, lang)) in AvailableLanguages()
    ensures Table(SetLanguage(st, lang)) == Languages[GetLanguage(SetLanguage(st, lang))]
  {
  }

  /** The previous state plays no part: the last `set_language` wins. */
  lemma SetLanguageLastWins(st: LangState, x: string, y: string)
    ensures SetLanguage(SetLanguage(st, x), y) == SetLanguage(st, y)
  {
  }

  /**
   * A configured language that is not supported is kept as it is by
   * `get_language`, while `tr` translates as English.
   */
  lemma UncheckedInitialLanguage(x: string, key: string, args: map<string, string>)
    requires x !in Languages
    ensures GetLanguage(Initial(Some(x))) == x
    ensures Tr(Initial(Some(x)), key, args) == Tr(LangState("en"), key, args)
  {
  }
}

=== FILE: text.dfy ===
/**
 * String helpers with Python's meaning: `str.isspace`, `strip`, `split`,
 * `join`, the substring test `a in b`, and `str.split(sep, 1)`.
 */
module Text {

  /** Python's `str.isspace()`: the code points that `strip()` removes. */
  predicate IsSpace(c: char) {
    || ('\t' <= c <= '\r')
    || ('\U{1C}' <= c <= '\U{1F}')
    || c == ' '
    || c == '\U{85}'
    || c == '\U{A0}'
    || c == '\U{1680}'
    || ('\U{2000}' <= c <= '\U{200A}')
    || c == '\U{2028}'
    || c == '\U{2029}'
    || c == '\U{202F}'
    || c == '\U{205F}'
    || c == '\U{3000}'
  }

  /** True when the last character of `s` is whitespace. */
  predicate EndsInSpace(s: string) {
    |s| > 0 && IsSpace(s[|s| - 1])
  }

  /** `s.lstrip()`: the longest suffix of `s` that does not start with whitespace. */
  function LStrip(s: string): (r: string)
    ensures |r| <= |s| && r == s[|s| - |r|..]
    ensures r == [] || !IsSpace(r[0])
    ensures forall i | 0 <= i < |s| - |r| :: IsSpace(s[i])
  {
    if |s| > 0 && IsSpace(s[0]) then
      var r := LStrip(s[1..]);
      assert s[1..][|s| - 1 - |r|..] == s[|s| - |r|..];
      assert forall i | 1 <= i < |s| - |r| :: s[i] == s[1..][i - 1];
      r
    else s
  }

  /** `s.rstrip()`: the longest prefix of `s` that does not end with whitespace. */
  function RStrip(s: string): (r: string)
    ensures |r| <= |s| && r == s[..|r|]
    ensures r == [] || !IsSpace(r[|r| - 1])
    ensures forall i | |r| <= i < |s| :: IsSpace(s[i])
  {
    if |s| > 0 && IsSpace(s[|s| - 1]) then RStrip(s[..|s| - 1]) else s
  }

  /** Number of leading whitespace characters: `len(s) - len(s.lstrip())`. */
  function LeadingSpaceCount(s: string): (n: nat)
    ensures n <= |s|
    ensures forall i | 0 <= i < n :: IsSpace(s[i])
    ensures n == |s| || !IsSpace(s[n])
  {
    |s| - |LStrip(s)|
  }

  /** `s.strip()`: `s` with leading and trailing whitespace removed. */
  function Strip(s: string): (r: string)
    ensures r == [] || (!IsSpace(r[0]) && !IsSpace(r[|r| - 1]))
    ensures LeadingSpaceCount(s) + |r| <= |s|
    ensures r == s[LeadingSpaceCount(s)..LeadingSpaceCount(s) + |r|]
    ensures forall i | LeadingSpaceCount(s) + |r| <= i < |s| :: IsSpace(s[i])
  {
    var l := LStrip(s);
    var r := RStrip(l);
    PrefixOfSuffix(s, LeadingSpaceCount(s), r);
    r
  }

  /** A prefix of the suffix from `n` is the slice from `n`, and what follows it is the rest of `s`. */
  lemma PrefixOfSuffix(s: string, n: nat, r: string)
    requires n <= |s| && |r| <= |s| - n && r == s[n..][..|r|]
    ensures r == s[n..n + |r|]
    ensures forall i | n + |r| <= i < |s| :: s[i] == s[n..][i - n]
  {
  }

  /** A string without surrounding whitespace is its own strip. */
  lemma StripTrimmed(s: string)
    requires s == [] || (!IsSpace(s[0]) && !IsSpace(s[|s| - 1]))
    ensures Strip(s) == s
  {
  }

  /** Whitespace around a text that neither starts nor ends with whitespace is what the strip removes. */
  lemma StripAround(w1: string, t: string, w2: string)
    requires forall i | 0 <= i < |w1| :: IsSpace(w1[i])
    requires forall i | 0 <= i < |w2| :: IsSpace(w2[i])
    requires |t| > 0 && !IsSpace(t[0]) && !IsSpace(t[|t| - 1])
    ensures LeadingSpaceCount(w1 + t + w2) == |w1|
    ensures Strip(w1 + t + w2) == t
  {
    var s := w1 + t + w2;
    assert forall i | 0 <= i < |w1| :: s[i] == w1[i];
    assert s[|w1|] == t[0] && s[|w1| + |t| - 1] == t[|t| - 1];
    assert forall i | |w1| + |t| <= i < |s| :: s[i] == w2[i - |w1| - |t|];
    assert s[|w1|..|w1| + |t|] == t;
  }

  /** A string is its leading whitespace, its strip and its trailing whitespace, in that order. */
  lemma StripSplits(s: string)
    ensures LeadingSpaceCount(s) + |Strip(s)| <= |s|
    ensures s == s[..LeadingSpaceCount(s)] + Strip(s) + s[LeadingSpaceCount(s) + |Strip(s)|..]
  {
    var a := LeadingSpaceCount(s);
    var t := Strip(s);
    SliceSplit(s, a, a + |t|);
  }

  lemma SliceSplit(s: string, a: nat, b: nat)
    requires a <= b <= |s|
    ensures s == s[..a] + s[a..b] + s[b..]
  {
  }

  /** Left-stripping a concatenation: `y` is reached only when `x` is all whitespace. */
  lemma {:induction false} LStripAppend(x: string, y: string)
    ensures LStrip(x + y) == if LStrip(x) == [] then LStrip(y) else LStrip(x) + y
  {
    if x == [] {
      assert x + y == y;
    } else {
      assert (x + y)[0] == x[0];
      assert (x + y)[1..] == x[1..] + y;
      if IsSpace(x[0]) {
        LStripAppend(x[1..], y);
      }
    }
  }

  /** Left-stripping stops at a non-whitespace character, so whatever follows it is kept. */
  lemma LStripBeforeNonSpace(s: string, t: string)
    requires |t| > 0 && !IsSpace(t[0])
    ensures LStrip(s + t) == LStrip(s) + t
  {
    LStripAppend(s, t);
  }

  /** Right-stripping a concatenation: `x` is reached only when `y` is all whitespace. */
  lemma {:induction false} RStripAppend(x: string, y: string)
    ensures RStrip(x + y) == if RStrip(y) == [] then RStrip(x) else x + RStrip(y)
  {
    if y == [] {
      assert x + y == x;
    } else {
      var n := |x + y|;
      assert (x + y)[n - 1] == y[|y| - 1];
      assert (x + y)[..n - 1] == x + y[..|y| - 1];
      if IsSpace(y[|y| - 1]) {
        RStripAppend(x, y[..|y| - 1]);
      }
    }
  }

  /** Number of occurrences of `c` in `s`. */
  function Count(s: string, c: char): nat {
    if s == [] then 0 else (if s[0] == c then 1 else 0) + Count(s[1..], c)
  }

  lemma {:induction false} CountAppend(a: string, b: string, c: char)
    ensures Count(a + b, c) == Count(a, c) + Count(b, c)
  {
    if a != [] {
      assert (a + b)[0] == a[0];
      assert (a + b)[1..] == a[1..] + b;
      CountAppend(a[1..], b, c);
      assert Count(a + b, c) == (if a[0] == c then 1 else 0) + Count(a[1..] + b, c);
    } else {
      assert a + b == b;
    }
  }

  lemma {:induction false} CountAbsent(s: string, c: char)
    requires c !in s
    ensures Count(s, c) == 0
  {
    if s != [] {
      assert c !in s[1..] by {
        forall i | 0 <= i < |s[1..]| ensures s[1..][i] != c {
          assert s[1..][i] == s[i + 1];
        }
      }
      CountAbsent(s[1..], c);
    }
  }

  /** `s.split(sep)` for a one-character separator: the pieces between separators. */
  function SplitOn(s: string, sep: char): (r: seq<string>)
    ensures |r| == Count(s, sep) + 1
    ensures forall i | 0 <= i < |r| :: sep !in r[i]
  {
    if s == [] then [[]]
    else
      var rest := SplitOn(s[1..], sep);
      if s[0] == sep then [[]] + rest
      else [[s[0]] + rest[0]] + rest[1..]
  }

  /** `sep.join(parts)`. */
  function JoinWith(parts: seq<string>, sep: char): string {
    if |parts| == 0 then []
    else if |parts| == 1 then parts[0]
    else parts[0] + [sep] + JoinWith(parts[1..], sep)
  }

  /** Joining the pieces of a split gives the original string back. */
  lemma {:induction false} JoinSplit(s: string, sep: char)
    ensures JoinWith(SplitOn(s, sep), sep) == s
  {
    if s != [] {
      var rest := SplitOn(s[1..], sep);
      JoinSplit(s[1..], sep);
      if s[0] == sep {
        assert SplitOn(s, sep) == [[]] + rest;
        assert ([[]] + rest)[1..] == rest;
      } else if |rest| == 1 {
        assert SplitOn(s, sep) == [[s[0]] + rest[0]];
      } else {
        var parts := SplitOn(s, sep);
        assert parts == [[s[0]] + rest[0]] + rest[1..];
        assert parts[1..] == rest[1..];
        assert JoinWith(rest, sep) == rest[0] + [sep] + JoinWith(rest[1..], sep);
        assert s == [s[0]] + s[1..];
      }
    }
  }

  /** The last element of a non-empty sequence of pieces. */
  function Last(ss: seq<string>): string
    requires |ss| > 0
  {
    ss[|ss| - 1]
  }

  /** Fusing the last piece of `sa` with the first piece of `sb`. */
  function Fuse(sa: seq<string>, sb: seq<string>): seq<string>
    requires |sa| > 0 && |sb| > 0
  {
    sa[..|sa| - 1] + [Last(sa) + sb[0]] + sb[1..]
  }

  lemma FuseSeparatorFirst(r: seq<string>, sb: seq<string>)
    requires |r| > 0 && |sb| > 0
    ensures Fuse([[]] + r, sb) == [[]] + Fuse(r, sb)
  {
    assert ([[]] + r)[..|r|] == [[]] + r[..|r| - 1];
  }

  lemma FuseCharFirst(ch: char, r: seq<string>, sb: seq<string>)
    requires |r| > 0 && |sb| > 0
    ensures |Fuse(r, sb)| > 0
    ensures Fuse([[ch] + r[0]] + r[1..], sb) == [[ch] + Fuse(r, sb)[0]] + Fuse(r, sb)[1..]
  {
    var f := Fuse(r, sb);
    if |r| == 1 {
      assert f == [r[0] + sb[0]] + sb[1..];
      assert [ch] + r[0] + sb[0] == [ch] + (r[0] + sb[0]);
    } else {
      assert f[0] == r[0];
      assert f[1..] == r[1..|r| - 1] + [Last(r) + sb[0]] + sb[1..];
    }
  }

  /**
   * How a split distributes over concatenation: the last piece of `a`
   * and the first piece of `b` fuse into one.
   */
  lemma {:induction false} SplitAppend(a: string, b: string, sep: char)
    ensures SplitOn(a + b, sep) == Fuse(SplitOn(a, sep), SplitOn(b, sep))
  {
    var sb := SplitOn(b, sep);
    if a == [] {
      assert a + b == b;
      assert SplitOn(a, sep) == [[]];
      assert [] + sb[0] == sb[0];
      assert sb == [sb[0]] + sb[1..];
    } else {
      assert (a + b)[0] == a[0];
      assert (a + b)[1..] == a[1..] + b;
      SplitAppend(a[1..], b, sep);
      var r := SplitOn(a[1..], sep);
      if a[0] == sep {
        FuseSeparatorFirst(r, sb);
      } else {
        FuseCharFirst(a[0], r, sb);
      }
    }
  }

  /** A string without the separator splits into itself alone. */
  lemma {:induction false} SplitAbsent(s: string, sep: char)
    requires sep !in s
    ensures SplitOn(s, sep) == [s]
  {
    CountAbsent(s, sep);
    var r := SplitOn(s, sep);
    JoinSplit(s, sep);
  }

  /** A separator-free piece followed by a separator is split off whole. */
  lemma PieceThenSeparator(x: string, tail: string, sep: char)
    requires sep !in x
    ensures SplitOn(x + [sep] + tail, sep) == [x] + SplitOn(tail, sep)
  {
    var st := SplitOn([sep] + tail, sep);
    assert ([sep] + tail)[0] == sep;
    assert ([sep] + tail)[1..] == tail;
    assert st == [[]] + SplitOn(tail, sep);
    SplitAbsent(x, sep);
    SplitAppend(x, [sep] + tail, sep);
    assert x + [sep] + tail == x + ([sep] + tail);
    assert x + [] == x;
  }

  /** Splitting a join of separator-free pieces gives the pieces back. */
  lemma {:induction false} SplitJoin(parts: seq<string>, sep: char)
    requires |parts| > 0
    requires forall i | 0 <= i < |parts| :: sep !in parts[i]
    ensures SplitOn(JoinWith(parts, sep), sep) == parts
  {
    if |parts| == 1 {
      SplitAbsent(parts[0], sep);
    } else {
      SplitJoin(parts[1..], sep);
      PieceThenSeparator(parts[0], JoinWith(parts[1..], sep), sep);
      assert parts == [parts[0]] + parts[1..];
    }
  }

  /** Index of the first occurrence of `c` in `s`. */
  function FirstIndex(s: string, c: char): (i: nat)
    requires c in s
    ensures i < |s| && s[i] == c && c !in s[..i]
  {
    if s[0] == c then 0 else 1 + FirstIndex(s[1..], c)
  }

  /** `s.split(c, 1)` when `c in s`: the text before and after the first `c`. */
  function SplitFirst(s: string, c: char): (r: (string, string))
    requires c in s
    ensures s == r.0 + [c] + r.1
    ensures c !in r.0
  {
    var i := FirstIndex(s, c);
    assert s == s[..i] + [c] + s[i + 1..];
    (s[..i], s[i + 1..])
  }

  /** The first occurrence is unique: a decomposition around a `c` not preceded by another is the split. */
  lemma SplitFirstUnique(x: string, y: string, c: char)
    requires c !in x
    ensures c in x + [c] + y
    ensures SplitFirst(x + [c] + y, c) == (x, y)
  {
    var s := x + [c] + y;
    assert s[|x|] == c;
    assert s[..|x|] == x;
    var i := FirstIndex(s, c);
    assert i == |x|;
    assert s[i + 1..] == y;
  }

  /** Python's `needle in hay` on two strings: a contiguous occurrence. */
  predicate IsSubstring(needle: string, hay: string)
    decreases |hay|
  {
    |needle| <= |hay| && (hay[..|needle|] == needle || (|hay| > 0 && IsSubstring(needle, hay[1..])))
  }

  /** The empty string occurs in every string. */
  lemma EmptyIsSubstring(hay: string)
    ensures IsSubstring([], hay)
  {
  }

  /** A one-character string occurs exactly when the character does. */
  lemma {:induction false} SingleCharSubstring(c: char, hay: string)
    ensures IsSubstring([c], hay) <==> c in hay
  {
    if |hay| > 0 {
      SingleCharSubstring(c, hay[1..]);
      assert hay == [hay[0]] + hay[1..];
      assert c in hay <==> c == hay[0] || c in hay[1..];
    }
  }

  /** A string of `n` spaces. */
  function Spaces(n: nat): (r: string)
    ensures |r| == n
    ensures forall i | 0 <= i < n :: r[i] == ' '
  {
    seq(n, _ => ' ')
  }
}

=== FILE: version.dfy ===
/**
 * Version strings of the form `core[-prerelease][+build]`: building one,
 * parsing one, and deciding whether a newer version is available.
 */
module Version {
  import opened Wrappers
  import opened Text
  import opened Decimal
  import Lang

  /** The application's own version fields. */
  const VersionBase: string := "1.0.0"
  const VersionInfo: seq<nat> := [1, 0, 0]
  const PrereleaseSuffix: string := ""
  const BuildMetadata: string := ""

  /**
   * `get_version` over explicit fields: the base, then `-prerelease` when
   * the prerelease is non-empty, then `+build` when the build is non-empty.
   */
  function GetVersion(base: string, prerelease: string, build: string): (r: string)
    ensures |r| == |base| + (if prerelease == [] then 0 else 1 + |prerelease|)
                          + (if build == [] then 0 else 1 + |build|)
    ensures r[..|base|] == base
    ensures prerelease != [] ==>
      r[|base|] == '-' && r[|base| + 1..|base| + 1 + |prerelease|] == prerelease
    ensures build != [] ==> r[|r| - |build| - 1] == '+' && r[|r| - |build|..] == build
  {
    var withPrerelease := if prerelease != [] then base + "-" + prerelease else base;
    if build != [] then withPrerelease + "+" + build else withPrerelease
  }

  /** `get_version()` with the application's constants. */
  function AppVersion(): (r: string)
    ensures r == VersionBase
  {
    GetVersion(VersionBase, PrereleaseSuffix, BuildMetadata)
  }

  /** What `parse_version` returns: the integer tuple, the prerelease tag and the build metadata. */
  datatype ParsedVersion = ParsedVersion(core: seq<nat>, prerelease: string, build: string)

  /** `tuple(map(int, fields))`, or `None` where some `int()` raises. */
  function ParseFields(fields: seq<string>): (r: Option<seq<nat>>)
    ensures r.Some? <==> forall i | 0 <= i < |fields| :: PyInt(fields[i]).Some?
    ensures r.Some? ==>
      |r.value| == |fields| && forall i | 0 <= i < |fields| :: r.value[i] == PyInt(fields[i]).value
  {
    MapAll(PyInt, fields)
  }

  /** `f` applied to every element, left to right, or `None` at the first element where it fails. */
  function MapAll<T, U>(f: T -> Option<U>, xs: seq<T>): (r: Option<seq<U>>)
    ensures r.Some? <==> forall i | 0 <= i < |xs| :: f(xs[i]).Some?
    ensures r.Some? ==> |r.value| == |xs| && forall i | 0 <= i < |xs| :: r.value[i] == f(xs[i]).value
  {
    if xs == [] then Some([])
    else
      match (f(xs[0]), MapAll(f, xs[1..]))
      case (Some(y), Some(ys)) => Some([y] + ys)
      case _ => None
  }

  /** The dot-separated integers of a core, or `(0, 0, 0)` when any field is not an integer. */
  function ParseCore(text: string): (r: seq<nat>)
    ensures var fields := SplitOn(text, '.');
      if forall i | 0 <= i < |fields| :: PyInt(fields[i]).Some? then
        |r| == |fields| && forall i | 0 <= i < |fields| :: r[i] == PyInt(fields[i]).value
      else r == [0, 0, 0]
    ensures |r| > 0
  {
    match ParseFields(SplitOn(text, '.'))
    case Some(parts) => parts
    case None => [0, 0, 0]
  }

  /**
   * `parse_version`: strip surrounding whitespace, split the build off at
   * the first `+`, then the prerelease off the rest at the first `-`.
   */
  function ParseVersion(v: string): (r: ParsedVersion)
    ensures '+' !in r.prerelease
    ensures |r.core| > 0
  {
    var s := Strip(v);
    var (rest, build) := if '+' in s then SplitFirst(s, '+') else (s, []);
    var (coreText, prerelease) := if '-' in rest then SplitFirst(rest, '-') else (rest, []);
    assert rest == coreText + (if '-' in rest then "-" else []) + prerelease;
    ParsedVersion(ParseCore(coreText), prerelease, build)
  }

  /** Python's `a < b` on integer tuples: lexicographic, a proper prefix being smaller. */
  function TupleLess(a: seq<nat>, b: seq<nat>): (r: bool)
    ensures r ==> a != b
    ensures r && |a| > 0 ==> |b| > 0 && a[0] <= b[0]
    decreases |a|
  {
    if |a| == 0 then |b| > 0
    else if |b| == 0 then false
    else if a[0] != b[0] then a[0] < b[0]
    else TupleLess(a[1..], b[1..])
  }

  /** The reason `check_version` gives, in place of the translated text. */
  datatype MessageKind =
    | UpdateAvailable
    | PrereleaseAvailable
    | LatestVersionInstalled
    | VersionCheckFailed

  datatype VersionCheck = VersionCheck(updateAvailable: bool, message: MessageKind)

  /** The translation key `check_version` passes to `tr` for each message. */
  function MessageKey(m: MessageKind): string {
    match m
    case UpdateAvailable => "update_available"
    case PrereleaseAvailable => "prerelease_available"
    case LatestVersionInstalled => "latest_version_installed"
    case VersionCheckFailed => "version_check_failed"
  }

  /**
   * The decision `check_version` makes on two parsed versions: an update
   * when the latest core tuple is greater, or when the cores are equal and
   * only the latest carries a prerelease. Build metadata takes no part.
   */
  function Compare(cur: ParsedVersion, lat: ParsedVersion): (r: VersionCheck)
    ensures r.message != VersionCheckFailed
    ensures r.updateAvailable <==> r.message != LatestVersionInstalled
  {
    if TupleLess(cur.core, lat.core) then VersionCheck(true, UpdateAvailable)
    else if lat.core == cur.core && lat.prerelease != [] && cur.prerelease == [] then
      VersionCheck(true, PrereleaseAvailable)
    else VersionCheck(false, LatestVersionInstalled)
  }

  /** `check_version(current, latest)`; its exception handler is never reached. */
  function CheckVersion(current: string, latest: string): (r: VersionCheck)
    ensures r.message != VersionCheckFailed
    ensures r.updateAvailable <==> r.message != LatestVersionInstalled
  {
    Compare(ParseVersion(current), ParseVersion(latest))
  }

  /** The decimal spellings of the parts, in order. */
  function Spellings(parts: seq<nat>): (r: seq<string>)
    ensures |r| == |parts|
    ensures forall i | 0 <= i < |parts| :: r[i] == NatToString(parts[i])
  {
    if parts == [] then [] else [NatToString(parts[0])] + Spellings(parts[1..])
  }

  /** A core tuple written as dot-separated decimals, as in `"1.0.0"`. */
  function FormatCore(parts: seq<nat>): string {
    JoinWith(Spellings(parts), '.')
  }

  /** A written core holds only digits and dots. */
  lemma {:induction false} FormatCoreChars(parts: seq<nat>)
    ensures forall i | 0 <= i < |FormatCore(parts)| ::
      IsDigit(FormatCore(parts)[i]) || FormatCore(parts)[i] == '.'
    ensures |parts| > 0 ==> |FormatCore(parts)| > 0
  {
    if |parts| == 1 {
      assert FormatCore(parts) == NatToString(parts[0]);
    } else if |parts| > 1 {
      FormatCoreChars(parts[1..]);
      assert Spellings(parts)[1..] == Spellings(parts[1..]);
      var head := NatToString(parts[0]);
      var tail := FormatCore(parts[1..]);
      assert FormatCore(parts) == head + "." + tail;
      forall i | 0 <= i < |FormatCore(parts)|
        ensures IsDigit(FormatCore(parts)[i]) || FormatCore(parts)[i] == '.'
      {
        if i > |head| {
          assert FormatCore(parts)[i] == tail[i - |head| - 1];
        }
      }
    }
  }

  /** A written core is non-empty, starts and ends without whitespace, and holds no `-` or `+`. */
  lemma WrittenCoreShape(parts: seq<nat>)
    requires |parts| > 0
    ensures var v := FormatCore(parts);
      |v| > 0 && !IsSpace(v[0]) && !EndsInSpace(v) && '-' !in v && '+' !in v
  {
    FormatCoreChars(parts);
  }

  /** Parsing a written core gives the tuple back. */
  lemma CoreRoundTrip(parts: seq<nat>)
    requires |parts| > 0
    ensures ParseCore(FormatCore(parts)) == parts
  {
    var fields := Spellings(parts);
    forall i | 0 <= i < |fields| ensures '.' !in fields[i] {
      assert AllDigits(fields[i]);
    }
    SplitJoin(fields, '.');
    forall i | 0 <= i < |fields| ensures PyInt(fields[i]) == Some(parts[i]) {
      PyIntOfNatToString(parts[i]);
    }
  }

  /**
   * Parsing what `get_version` builds recovers the prerelease and the build
   * metadata, when the base has no `-` or `+`, the prerelease has no `+`,
   * and the written string has no whitespace at either end for the strip
   * to remove. Whitespace inside the fields is kept.
   */
  lemma ParseGetVersion(base: string, prerelease: string, build: string)
    requires '-' !in base && '+' !in base && '+' !in prerelease
    requires base == [] || !IsSpace(base[0])
    requires !EndsInSpace(GetVersion(base, prerelease, build))
    ensures ParseVersion(GetVersion(base, prerelease, build)) == ParsedVersion(ParseCore(base), prerelease, build)
  {
    GetVersionTrimmed(base, prerelease, build);
    ParseStripsTo(GetVersion(base, prerelease, build), base, prerelease, build);
  }

  /** A version whose strip is what `get_version` writes parses back to its parts. */
  lemma ParseStripsTo(v: string, base: string, prerelease: string, build: string)
    requires '-' !in base && '+' !in base && '+' !in prerelease
    requires Strip(v) == GetVersion(base, prerelease, build)
    ensures ParseVersion(v) == ParsedVersion(ParseCore(base), prerelease, build)
  {
    var withPrerelease := if prerelease != [] then base + "-" + prerelease else base;
    assert '+' !in withPrerelease;
    if build != [] {
      SplitFirstUnique(withPrerelease, build, '+');
    }
    if prerelease != [] {
      SplitFirstUnique(base, prerelease, '-');
    }
  }

  /** What `get_version` writes from a base that does not start with whitespace is its own strip. */
  lemma GetVersionTrimmed(base: string, prerelease: string, build: string)
    requires base == [] || !IsSpace(base[0])
    requires !EndsInSpace(GetVersion(base, prerelease, build))
    ensures Strip(GetVersion(base, prerelease, build)) == GetVersion(base, prerelease, build)
  {
    var s := GetVersion(base, prerelease, build);
    if base != [] {
      assert s[0] == base[0];
    } else if prerelease != [] {
      assert s[0] == '-';
    } else if build != [] {
      assert s[0] == '+';
    }
    StripTrimmed(s);
  }

  /**
   * The full round trip: a written core with a prerelease and build parses
   * back to all three, when the prerelease has no `+` and the written
   * string does not end in whitespace.
   */
  lemma VersionRoundTrip(parts: seq<nat>, prerelease: string, build: string)
    requires |parts| > 0
    requires '+' !in prerelease
    requires !EndsInSpace(GetVersion(FormatCore(parts), prerelease, build))
    ensures ParseVersion(GetVersion(FormatCore(parts), prerelease, build)) == ParsedVersion(parts, prerelease, build)
  {
    var base := FormatCore(parts);
    WrittenCoreShape(parts);
    ParseGetVersion(base, prerelease, build);
    CoreRoundTrip(parts);
  }

  /** `get_version()` writes the tuple `__version_info__`. */
  lemma AppVersionIsVersionInfo()
    ensures AppVersion() == FormatCore(VersionInfo)
  {
    assert NatToString(1) == "1" && NatToString(0) == "0";
    assert Spellings(VersionInfo) == ["1", "0", "0"];
  }

  /** `__version__` and `__version_info__` agree: the version string parses to `(1, 0, 0)`. */
  lemma VersionInfoAgrees()
    ensures ParseVersion(AppVersion()) == ParsedVersion(VersionInfo, [], [])
  {
    AppVersionIsVersionInfo();
    ParseWrittenCore(VersionInfo);
  }

  /** A core with an empty field is not an error: it reads as `(0, 0, 0)`, because `int('')` raises. */
  lemma EmptyFieldIsZero(text: string)
    requires [] in SplitOn(text, '.')
    ensures ParseCore(text) == [0, 0, 0]
  {
    PyIntEmpty();
  }

  /** Two dots in a row, as in `1..0`, make an empty field. */
  lemma DoubleDotIsZero(x: string, y: string)
    ensures ParseCore(x + ".." + y) == [0, 0, 0]
  {
    var sx := SplitOn(x, '.');
    var rest := ".." + y;
    assert rest[0] == '.' && rest[1..] == "." + y;
    assert ("." + y)[0] == '.' && ("." + y)[1..] == y;
    var dy := "." + y;
    assert SplitOn(dy, '.') == [[]] + SplitOn(dy[1..], '.');
    assert rest[1..] == dy;
    var srest := SplitOn(rest, '.');
    assert srest == [[]] + SplitOn(rest[1..], '.');
    assert srest[0] == [];
    SplitAppend(x, rest, '.');
    assert x + ".." + y == x + rest;
    var fields := SplitOn(x + rest, '.');
    assert fields[|sx|] == [];
    EmptyFieldIsZero(x + ".." + y);
  }

  /** A leading dot, as in `.1`, makes an empty first field. */
  lemma LeadingDotIsZero(y: string)
    ensures ParseCore("." + y) == [0, 0, 0]
  {
    assert ("." + y)[0] == '.' && ("." + y)[1..] == y;
    assert SplitOn("." + y, '.')[0] == [];
    EmptyFieldIsZero("." + y);
  }

  /** A trailing dot, as in `1.`, makes an empty last field. */
  lemma TrailingDotIsZero(x: string)
    ensures ParseCore(x + ".") == [0, 0, 0]
  {
    var sx := SplitOn(x, '.');
    assert SplitOn(".", '.') == [[], []] by {
      assert "."[1..] == [];
    }
    SplitAppend(x, ".", '.');
    var fields := SplitOn(x + ".", '.');
    assert fields[|sx|] == [];
    EmptyFieldIsZero(x + ".");
  }

  /** An empty core is not an error either: it reads as `(0, 0, 0)`. */
  lemma EmptyCoreIsZero()
    ensures ParseCore([]) == [0, 0, 0]
  {
    assert SplitOn([], '.') == [[]];
    assert PyInt([]) == None;
  }

  /** Tuple order is irreflexive. */
  lemma {:induction false} TupleLessIrreflexive(a: seq<nat>)
    ensures !TupleLess(a, a)
  {
    if |a| > 0 {
      TupleLessIrreflexive(a[1..]);
    }
  }

  /** Tuple order is asymmetric. */
  lemma {:induction false} TupleLessAsymmetric(a: seq<nat>, b: seq<nat>)
    requires TupleLess(a, b)
    ensures !TupleLess(b, a)
  {
    if |a| > 0 && |b| > 0 && a[0] == b[0] {
      TupleLessAsymmetric(a[1..], b[1..]);
    }
  }

  /** Tuple order is transitive. */
  lemma {:induction false} TupleLessTransitive(a: seq<nat>, b: seq<nat>, c: seq<nat>)
    requires TupleLess(a, b) && TupleLess(b, c)
    ensures TupleLess(a, c)
  {
    if |a| > 0 && |b| > 0 && |c| > 0 && a[0] == b[0] && b[0] == c[0] {
      TupleLessTransitive(a[1..], b[1..], c[1..]);
    }
  }

  /** Tuple order is total: distinct tuples are ordered one way or the other. */
  lemma {:induction false} TupleLessTotal(a: seq<nat>, b: seq<nat>)
    ensures a == b || TupleLess(a, b) || TupleLess(b, a)
  {
    if |a| > 0 && |b| > 0 && a[0] == b[0] {
      TupleLessTotal(a[1..], b[1..]);
      if a[1..] == b[1..] {
        assert a == [a[0]] + a[1..] && b == [b[0]] + b[1..];
      }
    }
  }

  /** A proper prefix is smaller, so `(1, 0) < (1, 0, 0)`. */
  lemma {:induction false} TupleLessPrefix(a: seq<nat>, c: seq<nat>)
    requires |c| > 0
    ensures TupleLess(a, a + c)
  {
    if |a| > 0 {
      assert (a + c)[0] == a[0];
      assert (a + c)[1..] == a[1..] + c;
      TupleLessPrefix(a[1..], c);
    }
  }

  /** `b` is above `a` at position `k`: equal up to `k`, then `a` ends first or is smaller there. */
  predicate LessAt(a: seq<nat>, b: seq<nat>, k: nat) {
    && k <= |a| && k <= |b|
    && a[..k] == b[..k]
    && ((k == |a| && k < |b|) || (k < |a| && k < |b| && a[k] < b[k]))
  }

  /** The recursive order agrees with the textbook definition of lexicographic order. */
  lemma {:induction false} TupleLessWitness(a: seq<nat>, b: seq<nat>)
    ensures TupleLess(a, b) <==> exists k :: LessAt(a, b, k)
  {
    if TupleLess(a, b) {
      var k := LessIndex(a, b);
      assert LessAt(a, b, k);
    }
    if exists k :: LessAt(a, b, k) {
      var k :| LessAt(a, b, k);
      LessAtImpliesLess(a, b, k);
    }
  }

  lemma {:induction false} LessAtImpliesLess(a: seq<nat>, b: seq<nat>, k: nat)
    requires LessAt(a, b, k)
    ensures TupleLess(a, b)
    decreases k
  {
    if k > 0 {
      assert a[0] == a[..k][0] == b[..k][0] == b[0];
      assert a[1..][..k - 1] == a[..k][1..];
      assert b[1..][..k - 1] == b[..k][1..];
      assert LessAt(a[1..], b[1..], k - 1);
      LessAtImpliesLess(a[1..], b[1..], k - 1);
    }
  }

  /** The position at which `b` rises above `a`. */
  function LessIndex(a: seq<nat>, b: seq<nat>): (k: nat)
    requires TupleLess(a, b)
    ensures LessAt(a, b, k)
    decreases |a|
  {
    if |a| == 0 || a[0] != b[0] then 0
    else
      var k := LessIndex(a[1..], b[1..]);
      assert a[..k + 1] == [a[0]] + a[1..][..k];
      assert b[..k + 1] == [b[0]] + b[1..][..k];
      k + 1
  }

  /**
   * The decision rule of `check_version`, against the positional order
   * `LessAt`: a greater latest core is an update, a smaller one is not, and
   * with equal cores an update is reported exactly when the latest has a
   * prerelease and the current has none. The three cases cover every pair.
   */
  lemma CompareDecision(cur: ParsedVersion, lat: ParsedVersion)
    ensures (exists k :: LessAt(cur.core, lat.core, k)) || cur.core == lat.core
      || (exists k :: LessAt(lat.core, cur.core, k))
    ensures (exists k :: LessAt(cur.core, lat.core, k)) ==>
      Compare(cur, lat) == VersionCheck(true, UpdateAvailable)
    ensures cur.core == lat.core ==>
      (Compare(cur, lat).updateAvailable <==> lat.prerelease != [] && cur.prerelease == [])
    ensures cur.core == lat.core && Compare(cur, lat).updateAvailable ==>
      Compare(cur, lat).message == PrereleaseAvailable
    ensures (exists k :: LessAt(lat.core, cur.core, k)) ==>
      Compare(cur, lat) == VersionCheck(false, LatestVersionInstalled)
  {
    TupleLessWitness(cur.core, lat.core);
    TupleLessWitness(lat.core, cur.core);
    TupleLessIrreflexive(cur.core);
    if TupleLess(lat.core, cur.core) {
      TupleLessAsymmetric(lat.core, cur.core);
    }
    if cur.core != lat.core {
      TupleLessTotal(cur.core, lat.core);
    }
  }

  /** The decision rule on the strings `check_version` receives. */
  lemma CheckVersionDecision(current: string, latest: string)
    ensures var cur := ParseVersion(current); var lat := ParseVersion(latest);
      && ((exists k :: LessAt(cur.core, lat.core, k)) ==>
          CheckVersion(current, latest) == VersionCheck(true, UpdateAvailable))
      && (cur.core == lat.core ==>
          (CheckVersion(current, latest).updateAvailable <==> lat.prerelease != [] && cur.prerelease == []))
      && ((exists k :: LessAt(lat.core, cur.core, k)) ==>
          CheckVersion(current, latest) == VersionCheck(false, LatestVersionInstalled))
  {
    CompareDecision(ParseVersion(current), ParseVersion(latest));
  }

  /**
   * Between two prereleases of the same core no update is ever reported,
   * whichever way round: `1.0-alpha` and `1.0-beta` are both "latest
   * version installed" against each other.
   */
  lemma PrereleasesNeverUpdate(parts: seq<nat>, pre1: string, pre2: string)
    requires |parts| > 0
    requires pre1 != [] && '+' !in pre1 && !EndsInSpace(pre1)
    requires pre2 != [] && '+' !in pre2 && !EndsInSpace(pre2)
    ensures var v1 := GetVersion(FormatCore(parts), pre1, []);
      var v2 := GetVersion(FormatCore(parts), pre2, []);
      CheckVersion(v1, v2) == VersionCheck(false, LatestVersionInstalled)
  {
    var release := FormatCore(parts);
    WrittenCoreShape(parts);
    var v1 := GetVersion(release, pre1, []);
    var v2 := GetVersion(release, pre2, []);
    assert v1[|v1| - 1] == pre1[|pre1| - 1];
    assert v2[|v2| - 1] == pre2[|pre2| - 1];
    VersionRoundTrip(parts, pre1, []);
    VersionRoundTrip(parts, pre2, []);
    TupleLessIrreflexive(parts);
  }

  /** A version never reports an update over itself. */
  lemma NoSelfUpdate(v: string)
    ensures CheckVersion(v, v) == VersionCheck(false, LatestVersionInstalled)
  {
    TupleLessIrreflexive(ParseVersion(v).core);
  }

  /** If `b` is an update over `a`, then `a` is not an update over `b`. */
  lemma UpdateAsymmetric(a: string, b: string)
    requires CheckVersion(a, b).updateAvailable
    ensures !CheckVersion(b, a).updateAvailable
  {
    CompareAsymmetric(ParseVersion(a), ParseVersion(b));
  }

  lemma CompareAsymmetric(x: ParsedVersion, y: ParsedVersion)
    requires Compare(x, y).updateAvailable
    ensures !Compare(y, x).updateAvailable
  {
    if TupleLess(x.core, y.core) {
      TupleLessAsymmetric(x.core, y.core);
    } else {
      TupleLessIrreflexive(x.core);
    }
  }

  lemma CompareTransitive(a: ParsedVersion, b: ParsedVersion, c: ParsedVersion)
    requires Compare(a, b).updateAvailable && Compare(b, c).updateAvailable
    ensures Compare(a, c).updateAvailable
  {
    if TupleLess(a.core, b.core) && TupleLess(b.core, c.core) {
      TupleLessTransitive(a.core, b.core, c.core);
    }
  }

  /** Updates chain: an update over an update is an update. */
  lemma UpdateTransitive(a: string, b: string, c: string)
    requires CheckVersion(a, b).updateAvailable && CheckVersion(b, c).updateAvailable
    ensures CheckVersion(a, c).updateAvailable
  {
    CompareTransitive(ParseVersion(a), ParseVersion(b), ParseVersion(c));
  }

  lemma LStripWithBuild(s: string, build: string)
    ensures LStrip(s + "+" + build) == LStrip(s) + "+" + build
  {
    var t := "+" + build;
    assert s + "+" + build == s + t;
    assert LStrip(s) + "+" + build == LStrip(s) + t;
    LStripBeforeNonSpace(s, t);
  }

  lemma RStripWithBuild(l: string, build: string)
    ensures RStrip(l + "+" + build) == l + "+" + RStrip(build)
  {
    RStripAppend(l + "+", build);
    assert RStrip(l + "+") == l + "+";
  }

  lemma StripTrailingNonSpace(s: string)
    requires s == [] || !IsSpace(s[|s| - 1])
    ensures Strip(s) == LStrip(s)
  {
    var l := LStrip(s);
    if l != [] {
      assert l[|l| - 1] == s[|s| - 1];
    }
  }

  /**
   * Stripping `s + "+" + build` strips `s` on the left and `build` on the
   * right only; when `s` does not end in whitespace that is `s`'s own strip.
   */
  lemma StripWithBuild(s: string, build: string)
    ensures Strip(s + "+" + build) == LStrip(s) + "+" + RStrip(build)
    ensures !EndsInSpace(s) ==> Strip(s) == LStrip(s)
  {
    LStripWithBuild(s, build);
    RStripWithBuild(LStrip(s), build);
    if !EndsInSpace(s) {
      StripTrailingNonSpace(s);
    }
  }

  /** Appending `+build` to a version that does not end in whitespace keeps its core and prerelease. */
  lemma ParseWithBuild(s: string, build: string)
    requires '+' !in s
    requires s == [] || !IsSpace(s[|s| - 1])
    ensures ParseVersion(s + "+" + build).core == ParseVersion(s).core
    ensures ParseVersion(s + "+" + build).prerelease == ParseVersion(s).prerelease
  {
    StripWithBuild(s, build);
    var l := LStrip(s);
    assert '+' !in l;
    SplitFirstUnique(l, RStrip(build), '+');
  }

  /** The decision reads only the cores and prereleases. */
  lemma CompareReadsCoreAndPrerelease(a: ParsedVersion, a': ParsedVersion, other: ParsedVersion)
    requires a.core == a'.core && a.prerelease == a'.prerelease
    ensures Compare(a, other) == Compare(a', other)
    ensures Compare(other, a) == Compare(other, a')
  {
  }

  /**
   * Build metadata does not matter when the version does not end in
   * whitespace: every comparison involving it is unchanged by appending
   * `+build`. `TrailingWhitespaceBuildMatters` shows the other case.
   */
  lemma BuildIgnored(s: string, build: string, other: string)
    requires '+' !in s
    requires s == [] || !IsSpace(s[|s| - 1])
    ensures CheckVersion(s + "+" + build, other) == CheckVersion(s, other)
    ensures CheckVersion(other, s + "+" + build) == CheckVersion(other, s)
  {
    var withBuild := ParseVersion(s + "+" + build);
    var without := ParseVersion(s);
    var o := ParseVersion(other);
    ParseWithBuild(s, build);
    CompareReadsCoreAndPrerelease(withBuild, without, o);
    assert CheckVersion(s + "+" + build, other) == Compare(withBuild, o);
    assert CheckVersion(s, other) == Compare(without, o);
    assert CheckVersion(other, s + "+" + build) == Compare(o, withBuild);
    assert CheckVersion(other, s) == Compare(o, without);
  }

  /**
   * Where build metadata does change the answer: after `1.0- ` the strip
   * removes the space and leaves an empty prerelease, but with a build
   * after it the space stays as the prerelease, which then counts as newer.
   */
  lemma TrailingWhitespaceBuildMatters(parts: seq<nat>, build: string)
    requires |parts| > 0
    ensures var v := FormatCore(parts);
      CheckVersion(v, v + "- ") == VersionCheck(false, LatestVersionInstalled)
      && CheckVersion(v, v + "- +" + build) == VersionCheck(true, PrereleaseAvailable)
  {
    ParseWrittenCore(parts);
    ParseTrailingDash(parts);
    ParseTrailingDashBuild(parts, build);
    TupleLessIrreflexive(parts);
  }

  /** `v + "- "` strips to `v + "-"`: the tuple with an empty prerelease. */
  lemma ParseTrailingDash(parts: seq<nat>)
    requires |parts| > 0
    ensures ParseVersion(FormatCore(parts) + "- ") == ParsedVersion(parts, [], [])
  {
    var v := FormatCore(parts);
    WrittenCoreShape(parts);
    var bare := v + "- ";
    assert LStrip(bare) == bare;
    assert bare == (v + "-") + " ";
    assert RStrip(" ") == [] by {
      assert " "[..0] == [];
    }
    RStripAppend(v + "-", " ");
    assert RStrip(v + "-") == v + "-";
    assert Strip(bare) == v + "-";
    assert v + "-" == v + ['-'] + [];
    SplitFirstUnique(v, [], '-');
    CoreRoundTrip(parts);
  }

  /** `v + "- +" + build` keeps its space: the tuple with the prerelease `" "`. */
  lemma ParseTrailingDashBuild(parts: seq<nat>, build: string)
    requires |parts| > 0
    ensures ParseVersion(FormatCore(parts) + "- +" + build) == ParsedVersion(parts, " ", RStrip(build))
  {
    var v := FormatCore(parts);
    WrittenCoreShape(parts);
    var bare := v + "- ";
    assert "- " == ['-'] + " ";
    assert bare == v + ['-'] + " " by {
      assert bare == v + (['-'] + " ");
    }
    var withBuild := v + "- +" + build;
    assert "- +" == "- " + "+";
    assert withBuild == bare + "+" + build;
    assert LStrip(bare) == bare;
    LStripWithBuild(bare, build);
    RStripWithBuild(bare, build);
    assert Strip(withBuild) == bare + "+" + RStrip(build);
    assert '+' !in bare;
    SplitFirstUnique(bare, RStrip(build), '+');
    SplitFirstUnique(v, " ", '-');
    CoreRoundTrip(parts);
  }

  /**
   * A prerelease ranks ABOVE its own release here, the reverse of
   * section 11 of Semantic Versioning 2.0.0: moving from a release to a
   * prerelease of the same core reports an update, and not the other way.
   */
  lemma PrereleaseAboveRelease(parts: seq<nat>, prerelease: string)
    requires |parts| > 0
    requires prerelease != [] && '+' !in prerelease && !EndsInSpace(prerelease)
    ensures var release := FormatCore(parts);
      var pre := GetVersion(release, prerelease, []);
      CheckVersion(release, pre) == VersionCheck(true, PrereleaseAvailable)
      && CheckVersion(pre, release) == VersionCheck(false, LatestVersionInstalled)
  {
    var release := FormatCore(parts);
    WrittenCoreShape(parts);
    var pre := GetVersion(release, prerelease, []);
    assert pre[|pre| - 1] == prerelease[|prerelease| - 1];
    assert GetVersion(release, [], []) == release;
    VersionRoundTrip(parts, [], []);
    VersionRoundTrip(parts, prerelease, []);
    TupleLessIrreflexive(parts);
  }

  /** A bare written core parses to its tuple, with no prerelease and no build. */
  lemma ParseWrittenCore(parts: seq<nat>)
    requires |parts| > 0
    ensures ParseVersion(FormatCore(parts)) == ParsedVersion(parts, [], [])
  {
    WrittenCoreShape(parts);
    assert GetVersion(FormatCore(parts), [], []) == FormatCore(parts);
    VersionRoundTrip(parts, [], []);
  }

  /** A longer core that extends a shorter one is newer, so `1.0` is older than `1.0.0`. */
  lemma ShorterCoreIsOlder(parts: seq<nat>, extension: seq<nat>)
    requires |parts| > 0 && |extension| > 0
    ensures CheckVersion(FormatCore(parts), FormatCore(parts + extension)) == VersionCheck(true, UpdateAvailable)
    ensures !CheckVersion(FormatCore(parts + extension), FormatCore(parts)).updateAvailable
  {
    ParseWrittenCore(parts);
    ParseWrittenCore(parts + extension);
    TupleLessPrefix(parts, extension);
    TupleLessAsymmetric(parts, parts + extension);
  }

  /**
   * The message keys `check_version` hands to `tr` are in neither table, so
   * the text it returns is the key itself, in every language.
   */
  lemma MessagesUntranslated(st: Lang.LangState, m: MessageKind, args: map<string, string>)
    ensures Lang.Tr(st, MessageKey(m), args) == Ok(MessageKey(m))
  {
    MessageKeyAbsent(m);
    MessageKeyBraceFree(m);
    Lang.TrUntranslatedKey(st, MessageKey(m), args);
  }

  /**
   * The exception handler of `check_version` is never needed: the message
   * key it picks translates to itself, and the `.format(version=...)`
   * applied to it succeeds and changes nothing.
   */
  lemma CheckVersionMessagesSucceed(st: Lang.LangState, current: string, latest: string)
    ensures var m := CheckVersion(current, latest).message;
      && Lang.Tr(st, MessageKey(m), map[]) == Ok(MessageKey(m))
      && Lang.Format(MessageKey(m), map["version" := latest]) == Ok(MessageKey(m))
  {
    var m := CheckVersion(current, latest).message;
    MessagesUntranslated(st, m, map[]);
    MessageKeyBraceFree(m);
    assert Lang.Format(MessageKey(m), map["version" := latest]) == Ok(MessageKey(m));
  }

  lemma MessageKeyAbsent(m: MessageKind)
    ensures MessageKey(m) !in Lang.EnTable
  {
    MessageKeysAbsent();
  }

  lemma MessageKeyBraceFree(m: MessageKind)
    ensures Lang.BraceFree(MessageKey(m))
  {
  }

  lemma MessageKeysAbsent()
    ensures MessageKey(UpdateAvailable) !in Lang.EnTable
    ensures MessageKey(PrereleaseAvailable) !in Lang.EnTable
    ensures MessageKey(LatestVersionInstalled) !in Lang.EnTable
    ensures MessageKey(VersionCheckFailed) !in Lang.EnTable
  {
  }
}

=== FILE: wrappers.dfy ===
/** Failure-carrying values shared by the other modules. */
module Wrappers {

  /** A value that may be absent: Python's `None` or a failed conversion. */
  datatype Option<+T> = None | Some(value: T) {
    function GetOr(default: T): T {
      match this
      case Some(v) => v
      case None => default
    }
  }

  /** The outcome of an operation that may raise in Python. */
  datatype Result<+R, +E> = Ok(value: R) | Err(error: E)
}
